=== FILE: README.md ===
# Cambly lesson recordings downloader: a Dafny model

`cambly_movie.rb` logs in to Cambly with an e-mail address and a password.
It lists the student's past chats, keeps the rows that have a video, and
downloads each video to
`<destination_dir>/<%Y>/<%B>/lesson_<%A>_<%F>_<%H%M>.mp4`.
It creates the year/month directory first if it is missing.

This project models that core. Everything outside the program becomes data.
The HTTP answers are `Option` values. A download is a predicate on
(URL, destination). The local time zone is a fixed UTC offset. The file
system is a set of existing directory paths. The modules are:

- `Wrappers`: `Option`.
- `Decimal`: `Integer#to_s` and the zero padding `strftime` applies to its
  numeric fields.
- `Strings`: search, split, join, and the last component of a path.
- `FormUrlEncoded`: `URI.encode_www_form` and
  `URI.encode_www_form_component`, which are the
  `application/x-www-form-urlencoded` serializer of section 5.2 of the WHATWG
  URL Standard with Ruby's bare-key form for `nil`. The module also has the
  inverse parser.
- `CivilTime`: `Time.at`, the seconds-to-calendar breakdown. It is specified
  by its inverse, the seconds-since-the-Epoch formula of POSIX.1-2017, Base
  Definitions section 4.16.
- `LessonPath`: the `Path` class. It covers `strftime` for `%Y %B %A %F %H %M`,
  the directory, the file name, `prepare_path`, and parsers that read the
  directory and the file name back.
- `MovieRequests`: the login request, the listing URL and its query string,
  and the listing headers.
- `MovieRun`: `Movie#save`. It covers login, `fetch_list`'s filter, the
  `download_list` loop, and the single `rescue` around all three.

Properties proved include:

- The file name can be parsed back into the weekday, date, hour and minute.
- Two lessons share a destination exactly when they start in the same local
  minute: the seconds are the only thing lost. (Files are not modelled; in
  the code, a second lesson started in the same minute would therefore be
  written over the first.)
- The query string carries a `limit` pair exactly when the limit is positive.
- The filter keeps exactly the rows whose `hasVideoUrl` is truthy, in order.
- A failed login or listing ends the run before any download. Once login
  and listing succeed, the run completes exactly when no kept row raises;
  otherwise it stops at the first row that raises, and later rows are never
  attempted.

Facts about the code that shape the model:

- One `begin … rescue` wraps login, listing and the whole download loop
  (`cambly_movie.rb:33-41`). The first row that raises ends the run, and the
  rows after it are never taken up (`MovieRun.ExampleSecondRowFails`).
- The `select` in `fetch_list` (`cambly_movie.rb:79`) keeps every row whose
  `hasVideoUrl` is truthy. That is anything except `nil`, `false` or a
  missing key.
- Nothing checks the HTTP status of either answer (`cambly_movie.rb:72`,
  `79`).
- Nothing checks that the login `result` has a `token` (`cambly_movie.rb:93`)
  or a `userId` (`cambly_movie.rb:121`). A missing token becomes an empty
  token in the header. A missing user id is sent as a bare `userId` key.
- The file name writes the hour and minute as `%H%M`, with no separator
  between them (`cambly_movie.rb:154`).

## Model

| member | source | states |
|---|---|---|
| MovieRun.Save | cambly_movie.rb:33-80 | The first request is always the session POST with the login headers and credentials. A failed login ends the run at once, with no further request, no download and no directory change. After a login, the second request is the GET of the chats URL built from the session's `userId` and the configured limit, with the session token in the headers. A failed listing downloads nothing. Otherwise the attempts and directories are those of the download phase. The run is rescued at login or at listing exactly in those two cases. |
| MovieRun.Downloads | cambly_movie.rb:75-88 | The download phase only adds directories, and it can only end normally or at a row, never at login or listing. |
| MovieRun.DownloadsCompleted | cambly_movie.rb:33-41 | Once login and listing succeed, `save` ends without reaching the rescue exactly when every kept row has a start time and a URL and its transfer succeeds; it then has taken up every kept row. |
| MovieRun.DownloadsRescued | cambly_movie.rb:33-41 | Once login and listing succeed, `save` is rescued at kept row `k` exactly when `k` is the first kept row that raises; it has then taken up rows `0..k` and no later one. |
| MovieRun.DownloadsAttempts | cambly_movie.rb:82-88 | The rows taken up are a prefix of the kept rows, in listing order. Each is attempted as the row alone determines: its path and whether it succeeds. |
| MovieRun.DownloadsDirectories | cambly_movie.rb:142-149 | Every taken-up row with a start time finds its year/month directory in place afterwards, because `full_path` prepares it before the download. |
| MovieRun.DownloadsCreatesOnly | cambly_movie.rb:84-87 | After the listing, the only directories added are the lesson directories of the rows taken up, with their ancestors. When every kept row succeeds the bound is over all kept rows. When row `k` is the first to raise, it is over rows `0..k`, so later rows add none. |
| MovieRun.SaveDirectories | cambly_movie.rb:33-41 | After `save`, every existing directory remains. The lesson directory of every row taken up that has a start time exists. Nothing is added beyond those directories and their ancestors, so a failed login or listing adds nothing. |
| MovieRun.DownloadList | cambly_movie.rb:84-87 | The loop takes up at least one row when there is any, never more rows than there are, and never removes a directory. |
| MovieRun.DownloadListStopsAtFailure | cambly_movie.rb:84-87 | Every attempt before the last succeeded. The loop stops before the end only after a failed attempt. |
| MovieRun.DownloadListOutcome | cambly_movie.rb:33-41 | The loop's outcome is Completed exactly when all attempts succeed, and Rescued at `k` exactly when `k` is the first failing one. |
| MovieRun.DownloadListDirectories | cambly_movie.rb:142-149 | Every attempted row's non-empty directory is among the directories afterwards. |
| MovieRun.DownloadListCreatesOnly | cambly_movie.rb:84-87 | The loop adds no directory beyond the directories, and their ancestors, of the plans it takes up. |
| MovieRun.PrepareFor | cambly_movie.rb:147-149 | Preparing a row's directory keeps every existing directory and leaves that directory present. |
| MovieRun.SelectVideoRows | cambly_movie.rb:79 | The filter returns no more rows than it is given, and every row it returns has a truthy `hasVideoUrl`. |
| MovieRun.SelectCounts | cambly_movie.rb:79 | Each row with a truthy flag is kept as many times as it was listed. Every other row is dropped entirely. |
| MovieRun.SelectMembers | cambly_movie.rb:79 | A row is kept if and only if it was listed and its flag is truthy, meaning neither `nil`, `false` nor absent. |
| MovieRun.SelectIsSubsequence | cambly_movie.rb:79 | The kept rows appear in the listing's order. |
| MovieRun.SelectAppend | cambly_movie.rb:79 | Filtering a concatenation is the concatenation of the filtered parts, so each row is judged on its own. |
| MovieRun.SelectIdempotent | cambly_movie.rb:79 | Filtering the kept rows again changes nothing. |
| MovieRun.ExampleSelect | cambly_movie.rb:79 | In a four-row listing, the row whose flag is `null` is dropped. Rows flagged `true` or with any other value are kept. |
| MovieRun.ExampleSecondRowFails | cambly_movie.rb:33-41 | With three kept rows and a failing second transfer, two rows are attempted, the first succeeds, and the run is rescued at row 1. The third row is never taken up. |
| MovieRequests.LimitOnTheWire | cambly_movie.rb:105-118 | Parsing the sent query gives back the four fixed pairs in order. A fifth `limit` pair carrying the limit's decimal digits is present if and only if the limit is positive. A `nil` user id comes back as a bare key. |
| MovieRequests.QueryPairs | cambly_movie.rb:116-118 | The query has one pair per parameter, each decoding to that parameter. |
| MovieRequests.ChatsQueryText | cambly_movie.rb:101-118 | For a user id made of unreserved characters, the query is exactly `language=en&userId=<id>&sort=-1&role=student`, with `&limit=<n>` appended when the limit is positive. |
| MovieRequests.AuthorizationCarriesToken | cambly_movie.rb:90-99 | The listing's `Authorization` header carries exactly the session token between `Cambly session-token='` and `'`. A `nil` token gives the empty string. |
| FormUrlEncoded.EncodeComponent | cambly_movie.rb:117 | An encoded component uses only unreserved characters, `+` and `%`. It is at least as long as its input, and it is the input itself when the input is all unreserved. |
| FormUrlEncoded.DecodeEncode | cambly_movie.rb:117 | Percent-decoding an encoded component gives back the component's UTF-8 bytes. |
| FormUrlEncoded.ParseEncodedParam | cambly_movie.rb:117 | An encoded key, or an encoded key-value pair, parses back into the decoded pair. A `nil` value stays absent. |
| FormUrlEncoded.ParseSerialize | cambly_movie.rb:116-118 | A serialized non-empty parameter list parses back into one decoded pair per parameter, in order. |
| Decimal.IntToString | cambly_movie.rb:109 | The decimal text starts with `-` exactly for negative numbers, its digits read back as the number's magnitude, and it has no leading zero except for 0 itself, so it is the shortest form. |
| Decimal.NatToStringOfDigits | cambly_movie.rb:113 | A digit string without a leading zero is its own number's decimal form. |
| Decimal.ZeroPad | cambly_movie.rb:154 | A padded field has at least the requested width, only digits, and the number's value. |
| CivilTime.Breakdown | cambly_movie.rb:138 | The broken-down time is a valid calendar time whose POSIX seconds are the given second. |
| CivilTime.BreakdownPosix | cambly_movie.rb:138 | Breaking down the POSIX seconds of any valid time gives that time back. |
| CivilTime.PosixInjective | cambly_movie.rb:138 | Two valid times with the same POSIX seconds are equal. |
| CivilTime.BreakdownSameMinute | cambly_movie.rb:138 | Two seconds in the same minute break down to the same date, hour, minute and weekday. |
| CivilTime.YearOfDay | cambly_movie.rb:138 | The year found for a day count is the one whose first day is at or before that day and whose successor's first day is after it. |
| CivilTime.YearStep | cambly_movie.rb:138 | The POSIX day terms advance by the Gregorian length of each year. |
| CivilTime.LeapRule | cambly_movie.rb:138 | A year's length is 365 days plus the divisible-by-4, minus-100, plus-400 corrections. |
| CivilTime.MonthOfYday | cambly_movie.rb:138 | The month found for a day of the year is the one whose days contain it. |
| LessonPath.LocalStamp | cambly_movie.rb:137-138 | The local start time's fields are in range: weekday, month, day, hour and minute. |
| LessonPath.YearField | cambly_movie.rb:165-167 | `%Y` of a non-negative year is its digits, zero-padded to four and no further. A negative year is '-' followed by its magnitude's digits, padded to four and no further, so five characters at least. |
| LessonPath.ParseYearField | cambly_movie.rb:165-167 | `%Y` parses back to the year, negative years included. |
| LessonPath.TwoDigits | cambly_movie.rb:154 | `%m %d %H %M` are exactly two digits that read back as the field. |
| LessonPath.Directory | cambly_movie.rb:157-159 | The lesson directory is longer than the destination directory. |
| LessonPath.DirectoryUnderDestination | cambly_movie.rb:157-159 | The lesson directory starts with the destination directory followed by `/`. |
| LessonPath.ParseDirectoryOf | cambly_movie.rb:157-167 | The directory's last two components read back as the stamp's year (`%Y`) and month (`%B`). |
| LessonPath.DirectoryRecordsStart | cambly_movie.rb:142-167 | The full path is the lesson directory, then `/`, then the file name. The file name reads back as the local start stamp. The directory's `%Y` and `%B` components read back as that stamp's year and month. |
| LessonPath.Prepare | cambly_movie.rb:147-149 | After preparing, the directory exists, and when it was missing so are all its ancestors, as `FileUtils.makedirs` creates them. Nothing else is added, and nothing at all when the directory already existed. |
| LessonPath.PrepareIdempotent | cambly_movie.rb:147-149 | Preparing the same directory twice is the same as preparing it once. |
| LessonPath.ParseFileNameRoundTrip | cambly_movie.rb:153-155 | The file name parses back to the weekday, year, month, day, hour and minute it was made from. |
| LessonPath.FileNameHasNoSlash | cambly_movie.rb:153-155 | The file name contains no `/`, so it is always the path's last component. |
| LessonPath.StampFixesMinute | cambly_movie.rb:153-155 | The fields the file name records determine the local minute of the start time. |
| LessonPath.StampSameMinute | cambly_movie.rb:153-159 | Start times in the same local minute give the same fields for the directory and the file name. |
| LessonPath.PathOfInjective | cambly_movie.rb:142-145 | Different start fields give different full paths under the same destination directory. |
| LessonPath.FullPathCollision | cambly_movie.rb:142-145 | Two lessons get the same full path if and only if they start in the same local minute. |
| LessonPath.ExampleFileName | cambly_movie.rb:153-155 | Tuesday 2023-11-14 22:13 gives `lesson_Tuesday_2023-11-14_2213.mp4`. |
| LessonPath.ExampleFullPath | cambly_movie.rb:142-167 | Second 1700000000 in UTC under `/lessons` gives `/lessons/2023/November/lesson_Tuesday_2023-11-14_2213.mp4`. |

## Left out

- The Thor command line (`cambly_movie.rb:11-21`, `219`) and `Movie#initialize`'s defaults (`26-31`) are left out: `Config` holds the options as given. The caller supplies `Dir.pwd` when no destination is given.
- The HTTP transport (`curb`), the JSON encoding of the login body and the JSON parsing of the answers are inputs: `World.login` and `World.listing` are `None` exactly when the call, the parse or `fetch('result')` raises. The HTTP status is ignored, as in the code.
- A login `result` that is not a JSON object (`null`, a string, a number, an array) is not modelled. The login is modelled as giving a token and a user id, each possibly absent.
- A listing `result` that is not an array of JSON objects is not modelled. The listing is modelled as a sequence of rows.
- The `Downloader` class (`cambly_movie.rb:170-216`) and `Down.download` are one predicate, `World.transfer`, on (URL, destination path). The progress bar is output only and is not modelled.
- Output with `puts` (the file count and the rescued error message) is not modelled.
- `Time.at`'s local time zone is a fixed offset in seconds (`World.utcOffset`). Daylight-saving changes and the zone database are not modelled.
- The file system is the set of existing directory paths. `FileUtils.makedirs` adds the path and every prefix of it ending before a `/`. Path normalisation (`//`, `.`, `..`), permissions and files are not modelled.
- LessonPath.Prepare: assumes `FileUtils.makedirs` (cambly_movie.rb:148) never raises. In the code, a file in the way or a refused mkdir raises inside `save`'s rescue and ends the run at that row, before its download.
- `Dir.exists?`, used in `prepare_path`, was removed in Ruby 3.2. The model assumes a Ruby version where it exists.
- `Movie#file_name` (`cambly_movie.rb:124-126`) is never called and calls an undefined `start_time`, so it is not modelled; its format `lesson_%A_%F_%H_%M.mp4` differs from the live `%H%M` of `cambly_movie.rb:154`.
- `rescue => e` (`cambly_movie.rb:38`) catches only `StandardError`. An `Interrupt` (Ctrl-C during a transfer) or any other exception outside `StandardError` escapes `save` in the code; such exceptions are not modelled, and every failure in the model is one the rescue catches.
- Floating-point values are not modelled. A fractional `startTime` or `limit` (`Time.at` of a Float, `limit.to_i` truncating, `Float#to_s` in the query) is modelled only for integer values. A start time that is not a number counts as missing.
- MovieRun.DownloadList: states no per-attempt facts in its own contract. They are in DownloadListAttempts, DownloadListStopsAtFailure and DownloadListDirectories.
- FormUrlEncoded.ParseSerialize: requires at least one parameter, because the parser maps the empty string to one empty pair. The listing query always has at least four.

=== FILE: civil_time.dfy ===
/** Seconds since the Epoch and broken-down civil time, as `Time.at` produces
    them for Ruby's `strftime`. The conversion is specified by its inverse,
    the formula of POSIX.1-2017, Base Definitions section 4.16, which defines
    the seconds since the Epoch of a broken-down UTC time. Leap seconds do not
    exist in this scale. */
module CivilTime {

  /** The fields of a `struct tm`; `year` is the full year (not year - 1900),
      `month` runs 1..12, `yday` 0..365 and `wday` 0..6 with Sunday as 0. */
  datatype Tm = Tm(year: int, month: int, day: int, hour: int, minute: int, second: int,
                   yday: int, wday: int)

  predicate IsLeapYear(y: int) {
    y % 4 == 0 && (y % 100 != 0 || y % 400 == 0)
  }

  function DaysInYear(y: int): int {
    if IsLeapYear(y) then 366 else 365
  }

  function DaysInMonth(y: int, m: int): int
    requires 1 <= m <= 12
  {
    if m == 2 then (if IsLeapYear(y) then 29 else 28)
    else if m == 4 || m == 6 || m == 9 || m == 11 then 30
    else 31
  }

  /** Days of year `y` before the first of month `m`; `m == 13` gives the year's length. */
  function DaysBeforeMonth(y: int, m: int): int
    requires 1 <= m <= 13
  {
    [0, 31, 59, 90, 120, 151, 181, 212, 243, 273, 304, 334, 365][m - 1]
      + (if m > 2 && IsLeapYear(y) then 1 else 0)
  }

  /** Days from 1970-01-01 to the first of January of year `y`, as the day
      terms of the POSIX formula give them (with `tm_year == y - 1900`).
      Dafny's `/` floors here, where C's truncates: the two agree from 1970
      on, the only range POSIX defines the formula for, and flooring extends
      it to the proleptic Gregorian count Ruby's `Time` uses for every year
      (`YearStep`). */
  function DaysBeforeYear(y: int): int {
    var tmYear := y - 1900;
    (tmYear - 70) * 365 + (tmYear - 69) / 4 - (tmYear - 1) / 100 + (tmYear + 299) / 400
  }

  /** POSIX.1-2017 section 4.16: seconds since the Epoch of a broken-down time. */
  function PosixSeconds(tm: Tm): int {
    var tmYear := tm.year - 1900;
    tm.second + tm.minute * 60 + tm.hour * 3600 + tm.yday * 86400
      + (tmYear - 70) * 31536000 + ((tmYear - 69) / 4) * 86400
      - ((tmYear - 1) / 100) * 86400 + ((tmYear + 299) / 400) * 86400
  }

  /** The weekday of a day counted from the Epoch; 1970-01-01 was a Thursday. */
  function WeekdayOfDay(days: int): (w: int)
    ensures 0 <= w < 7
  {
    (days + 4) % 7
  }

  /** A consistent broken-down time in the proleptic Gregorian calendar. */
  predicate Valid(tm: Tm) {
    && 1 <= tm.month <= 12
    && 1 <= tm.day <= DaysInMonth(tm.year, tm.month)
    && 0 <= tm.hour < 24
    && 0 <= tm.minute < 60
    && 0 <= tm.second < 60
    && tm.yday == DaysBeforeMonth(tm.year, tm.month) + tm.day - 1
    && tm.wday == WeekdayOfDay(DaysBeforeYear(tm.year) + tm.yday)
  }

  // ---------------------------------------------------------------- calendar facts

  lemma DivStep4(n: int)
    ensures (n + 1) / 4 - n / 4 == if (n + 1) % 4 == 0 then 1 else 0
  {
  }

  lemma DivStep100(n: int)
    ensures (n + 1) / 100 - n / 100 == if (n + 1) % 100 == 0 then 1 else 0
  {
  }

  lemma DivStep400(n: int)
    ensures (n + 1) / 400 - n / 400 == if (n + 1) % 400 == 0 then 1 else 0
  {
  }

  /** Euclidean division by a positive constant is determined by any
      quotient and remainder in range. */
  lemma DivMod4(n: int, q: int, r: int)
    requires 0 <= r < 4 && n == 4 * q + r
    ensures n / 4 == q && n % 4 == r
  {
  }

  lemma DivMod100(n: int, q: int, r: int)
    requires 0 <= r < 100 && n == 100 * q + r
    ensures n / 100 == q && n % 100 == r
  {
  }

  lemma DivMod400(n: int, q: int, r: int)
    requires 0 <= r < 400 && n == 400 * q + r
    ensures n / 400 == q && n % 400 == r
  {
  }

  /** Each leap-year term of the POSIX formula steps by one exactly in the
      years its rule names; the offsets are multiples of the cycle lengths. */
  lemma LeapTerm4(y: int)
    ensures (y - 1968) / 4 - (y - 1969) / 4 == if y % 4 == 0 then 1 else 0
  {
    DivMod4(y - 1968, y / 4 - 492, y % 4);
    DivStep4(y - 1969);
  }

  lemma LeapTerm100(y: int)
    ensures (y - 1900) / 100 - (y - 1901) / 100 == if y % 100 == 0 then 1 else 0
  {
    DivMod100(y - 1900, y / 100 - 19, y % 100);
    DivStep100(y - 1901);
  }

  lemma LeapTerm400(y: int)
    ensures (y - 1600) / 400 - (y - 1601) / 400 == if y % 400 == 0 then 1 else 0
  {
    DivMod400(y - 1600, y / 400 - 4, y % 400);
    DivStep400(y - 1601);
  }

  /** Consecutive years start `DaysInYear` days apart. */
  lemma YearStep(y: int)
    ensures DaysBeforeYear(y + 1) == DaysBeforeYear(y) + DaysInYear(y)
  {
    YearTerms(y);
    YearTerms(y + 1);
    var a := (y - 1968) / 4 - (y - 1969) / 4;
    var b := (y - 1900) / 100 - (y - 1901) / 100;
    var c := (y - 1600) / 400 - (y - 1601) / 400;
    assert DaysBeforeYear(y + 1) == DaysBeforeYear(y) + 365 + a - b + c;
    LeapTerm4(y);
    LeapTerm100(y);
    LeapTerm400(y);
    LeapRule(y);
  }

  /** The Gregorian rule as a sum of the three divisibility terms. */
  lemma LeapRule(y: int)
    ensures DaysInYear(y) == 365 + (if y % 4 == 0 then 1 else 0) - (if y % 100 == 0 then 1 else 0)
                                  + (if y % 400 == 0 then 1 else 0)
  {
    if y % 400 == 0 {
      DivMod100(y, 4 * (y / 400), 0);
    }
    if y % 100 == 0 {
      DivMod4(y, 25 * (y / 100), 0);
    }
  }

  /** The day terms in the full year. */
  lemma YearTerms(y: int)
    ensures DaysBeforeYear(y) == (y - 1970) * 365 + (y - 1969) / 4 - (y - 1901) / 100 + (y - 1601) / 400
  {
  }

  /** Later years start later. */
  lemma {:induction false} YearMonotone(a: int, b: int)
    requires a < b
    ensures DaysBeforeYear(a + 1) <= DaysBeforeYear(b)
    decreases b - a
  {
    if a + 1 < b {
      YearMonotone(a + 1, b);
      YearStep(a + 1);
    }
  }

  /** Only one year contains a given day. */
  lemma YearUnique(days: int, a: int, b: int)
    requires DaysBeforeYear(a) <= days < DaysBeforeYear(a + 1)
    requires DaysBeforeYear(b) <= days < DaysBeforeYear(b + 1)
    ensures a == b
  {
    if a < b { YearMonotone(a, b); }
    if b < a { YearMonotone(b, a); }
  }

  /** Only one month contains a given day of the year. */
  lemma MonthUnique(y: int, yday: int, a: int, b: int)
    requires 1 <= a <= 12 && 1 <= b <= 12
    requires DaysBeforeMonth(y, a) <= yday < DaysBeforeMonth(y, a + 1)
    requires DaysBeforeMonth(y, b) <= yday < DaysBeforeMonth(y, b + 1)
    ensures a == b
  {
  }

  /** The month table and the month lengths agree. */
  lemma MonthStep(y: int, m: int)
    requires 1 <= m <= 12
    ensures DaysBeforeMonth(y, m + 1) == DaysBeforeMonth(y, m) + DaysInMonth(y, m)
    ensures DaysBeforeMonth(y, 13) == DaysInYear(y)
  {
  }

  // ---------------------------------------------------------------- breakdown

  function YearUp(days: int, y: int): (r: int)
    requires DaysBeforeYear(y) <= days
    ensures DaysBeforeYear(r) <= days < DaysBeforeYear(r + 1)
    decreases days - DaysBeforeYear(y)
  {
    YearStep(y);
    if days < DaysBeforeYear(y + 1) then y else YearUp(days, y + 1)
  }

  function YearDown(days: int, y: int): (r: int)
    requires days < DaysBeforeYear(y + 1)
    ensures DaysBeforeYear(r) <= days < DaysBeforeYear(r + 1)
    decreases DaysBeforeYear(y + 1) - days
  {
    YearStep(y);
    if DaysBeforeYear(y) <= days then y else YearDown(days, y - 1)
  }

  /** The year containing the day `days` after 1970-01-01 (negative: before it). */
  function YearOfDay(days: int): (y: int)
    ensures DaysBeforeYear(y) <= days < DaysBeforeYear(y + 1)
  {
    if days >= 0 then YearUp(days, 1970) else YearDown(days, 1969)
  }

  function MonthFrom(y: int, yday: int, m: int): (r: int)
    requires 1 <= m <= 12
    requires DaysBeforeMonth(y, m) <= yday < DaysBeforeMonth(y, 13)
    ensures m <= r <= 12
    ensures DaysBeforeMonth(y, r) <= yday < DaysBeforeMonth(y, r + 1)
    decreases 12 - m
  {
    if yday < DaysBeforeMonth(y, m + 1) then m else MonthFrom(y, yday, m + 1)
  }

  /** The month containing day `yday` (0-based) of year `y`. */
  function MonthOfYday(y: int, yday: int): (m: int)
    requires 0 <= yday < DaysInYear(y)
    ensures 1 <= m <= 12
    ensures DaysBeforeMonth(y, m) <= yday < DaysBeforeMonth(y, m + 1)
  {
    MonthStep(y, 1);
    MonthFrom(y, yday, 1)
  }

  /** `Time.at(t).utc`: the broken-down UTC time of `t` seconds since the Epoch. */
  function Breakdown(t: int): (tm: Tm)
    ensures Valid(tm)
    ensures PosixSeconds(tm) == t
  {
    var days := t / 60 / 1440;
    var y := YearOfDay(days);
    DayOfYear(days, y);
    var yday := days - DaysBeforeYear(y);
    var m := MonthOfYday(y, yday);
    Assemble(t, y, m, yday)
  }

  /** Two seconds of the same minute break down alike except for the second. */
  lemma BreakdownSameMinute(t1: int, t2: int)
    requires t1 / 60 == t2 / 60
    ensures var a, b := Breakdown(t1), Breakdown(t2);
      && a.year == b.year && a.month == b.month && a.day == b.day
      && a.hour == b.hour && a.minute == b.minute && a.wday == b.wday
  {
    var minutes := t1 / 60;
    assert t1 / 60 / 1440 == minutes / 1440 && t2 / 60 / 1440 == minutes / 1440;
  }

  /** A day of the year that contains it is a day of that year. */
  lemma DayOfYear(days: int, y: int)
    requires DaysBeforeYear(y) <= days < DaysBeforeYear(y + 1)
    ensures 0 <= days - DaysBeforeYear(y) < DaysInYear(y)
  {
    YearStep(y);
  }

  /** The broken-down time of `t`, given its year, month and day of the year. */
  function Assemble(t: int, y: int, m: int, yday: int): (tm: Tm)
    requires yday == t / 60 / 1440 - DaysBeforeYear(y)
    requires 1 <= m <= 12
    requires DaysBeforeMonth(y, m) <= yday < DaysBeforeMonth(y, m + 1)
    ensures Valid(tm)
    ensures PosixSeconds(tm) == t
  {
    var minuteOfDay := (t / 60) % 1440;
    MonthStep(y, m);
    var tm := Tm(y, m, yday - DaysBeforeMonth(y, m) + 1, minuteOfDay / 60, minuteOfDay % 60,
                 t % 60, yday, WeekdayOfDay(t / 60 / 1440));
    PosixDays(tm);
    JoinSeconds(t);
    tm
  }

  /** The POSIX formula splits into whole days and the time of day. */
  lemma PosixDays(tm: Tm)
    ensures PosixSeconds(tm)
      == tm.second + 60 * tm.minute + 3600 * tm.hour + 86400 * (DaysBeforeYear(tm.year) + tm.yday)
  {
  }

  /** Seconds are whole days, hours, minutes and seconds. */
  lemma JoinSeconds(t: int)
    ensures var minutes := t / 60;
      t == t % 60 + 60 * (minutes % 1440 % 60) + 3600 * (minutes % 1440 / 60) + 86400 * (minutes / 1440)
  {
    var minutes := t / 60;
    assert t == 60 * minutes + t % 60;
    assert minutes == 1440 * (minutes / 1440) + minutes % 1440;
    assert minutes % 1440 == 60 * (minutes % 1440 / 60) + minutes % 1440 % 60;
  }

  /** Seconds split uniquely into days, hours, minutes and seconds. */
  lemma SplitSeconds(t: int, days: int, hour: int, minute: int, second: int)
    requires 0 <= hour < 24 && 0 <= minute < 60 && 0 <= second < 60
    requires t == second + 60 * minute + 3600 * hour + 86400 * days
    ensures t % 60 == second
    ensures t / 60 / 1440 == days
    ensures (t / 60) % 1440 / 60 == hour && (t / 60) % 1440 % 60 == minute
  {
    var minutes := minute + 60 * hour + 1440 * days;
    assert t == 60 * minutes + second;
    assert t / 60 == minutes && t % 60 == second;
    var minuteOfDay := minute + 60 * hour;
    assert 0 <= minuteOfDay < 1440;
    assert minutes / 1440 == days && minutes % 1440 == minuteOfDay;
  }

  /** A consistent date lies within its year. */
  lemma YdayInYear(tm: Tm)
    requires Valid(tm)
    ensures 0 <= tm.yday < DaysInYear(tm.year)
    ensures DaysBeforeMonth(tm.year, tm.month) <= tm.yday < DaysBeforeMonth(tm.year, tm.month + 1)
  {
    MonthStep(tm.year, tm.month);
  }

  /** `YearOfDay` finds the one year that contains the day. */
  lemma YearOfDayUnique(days: int, y: int)
    requires DaysBeforeYear(y) <= days < DaysBeforeYear(y + 1)
    ensures YearOfDay(days) == y
  {
    YearUnique(days, YearOfDay(days), y);
  }

  /** The day count and the time of day of a broken-down time are recovered
      from its POSIX seconds. */
  lemma PosixParts(tm: Tm)
    requires 0 <= tm.hour < 24 && 0 <= tm.minute < 60 && 0 <= tm.second < 60
    ensures var t := PosixSeconds(tm);
      && t / 60 / 1440 == DaysBeforeYear(tm.year) + tm.yday
      && t % 60 == tm.second
      && (t / 60) % 1440 / 60 == tm.hour
      && (t / 60) % 1440 % 60 == tm.minute
  {
    PosixDays(tm);
    SplitSeconds(PosixSeconds(tm), DaysBeforeYear(tm.year) + tm.yday, tm.hour, tm.minute, tm.second);
  }

  /** A day within year `y` lies in year `y`. */
  lemma YearOfDayInYear(days: int, y: int)
    requires DaysBeforeYear(y) <= days < DaysBeforeYear(y) + DaysInYear(y)
    ensures YearOfDay(days) == y
  {
    YearStep(y);
    YearOfDayUnique(days, y);
  }

  /** Distinct consistent broken-down times have distinct POSIX seconds. */
  lemma PosixInjective(a: Tm, b: Tm)
    requires Valid(a) && Valid(b)
    requires PosixSeconds(a) == PosixSeconds(b)
    ensures a == b
  {
    var days := PosixSeconds(a) / 60 / 1440;
    PosixParts(a);
    PosixParts(b);
    YdayInYear(a);
    YdayInYear(b);
    YearOfDayInYear(days, a.year);
    YearOfDayInYear(days, b.year);
    SameDay(a, b);
  }

  /** Within a year, the day of the year fixes month, day and weekday. */
  lemma SameDay(a: Tm, b: Tm)
    requires Valid(a) && Valid(b)
    requires a.year == b.year && a.yday == b.yday
    ensures a.month == b.month && a.day == b.day && a.wday == b.wday
  {
    YdayInYear(a);
    YdayInYear(b);
    MonthUnique(a.year, a.yday, a.month, b.month);
  }

  /** Conversely, every consistent broken-down time is what `Breakdown` gives
      for its POSIX seconds: the two directions are inverse bijections. */
  lemma BreakdownPosix(tm: Tm)
    requires Valid(tm)
    ensures Breakdown(PosixSeconds(tm)) == tm
  {
    PosixInjective(Breakdown(PosixSeconds(tm)), tm);
  }
}

=== FILE: decimal.dfy ===
/** Decimal rendering of integers: Ruby's `Integer#to_s` and the zero-padded
    numeric fields of `strftime`, together with the digit parser that inverts them. */
module Decimal {

  predicate IsDigit(c: char) {
    '0' <= c <= '9'
  }

  predicate AllDigits(s: string) {
    forall i :: 0 <= i < |s| ==> IsDigit(s[i])
  }

  function DigitChar(d: int): (c: char)
    requires 0 <= d < 10
    ensures IsDigit(c)
  {
    (48 + d) as char
  }

  function DigitValue(c: char): (d: int)
    requires IsDigit(c)
    ensures 0 <= d < 10
  {
    c as int - 48
  }

  /** The value of a string of decimal digits, most significant first. */
  function DigitsValue(s: string): (n: nat)
    requires AllDigits(s)
    decreases |s|
  {
    if s == [] then 0 else 10 * DigitsValue(s[..|s| - 1]) + DigitValue(s[|s| - 1])
  }

  /** `Integer#to_s` for a non-negative integer: shortest decimal form. */
  function NatToString(n: nat): (s: string)
    ensures |s| >= 1 && AllDigits(s)
    ensures s[0] == '0' ==> n == 0
    ensures DigitsValue(s) == n
    decreases n
  {
    if n < 10 then [DigitChar(n)]
    else
      var prefix := NatToString(n / 10);
      var s := prefix + [DigitChar(n % 10)];
      assert s[..|s| - 1] == prefix;
      s
  }

  /** The last digit of a number with several is its remainder by ten. */
  lemma NatToStringStep(n: nat)
    requires n >= 10
    ensures NatToString(n) == NatToString(n / 10) + [DigitChar(n % 10)]
  {
  }

  /** `Integer#to_s` for any integer: a leading '-' for negatives, and the
      shortest digit string (no leading zero except in "0"). */
  function IntToString(i: int): (s: string)
    ensures |s| >= 1
    ensures i < 0 <==> s[0] == '-'
    ensures i >= 0 ==> AllDigits(s) && DigitsValue(s) == i
    ensures i >= 0 ==> (s[0] == '0' ==> i == 0)
    ensures i < 0 ==> |s| >= 2 && s[1] != '0'
    ensures i < 0 ==> AllDigits(s[1..]) && DigitsValue(s[1..]) == -i
  {
    if i < 0 then "-" + NatToString(-i) else NatToString(i)
  }

  function Zeros(k: nat): (z: string)
    ensures |z| == k && AllDigits(z)
    ensures forall i :: 0 <= i < k ==> z[i] == '0'
  {
    seq(k, _ => '0')
  }

  /** A numeric `strftime` field: the decimal form padded with '0' on the left
      to at least `width` characters. */
  function ZeroPad(n: nat, width: nat): (s: string)
    ensures |s| == if |NatToString(n)| < width then width else |NatToString(n)|
    ensures AllDigits(s)
    ensures DigitsValue(s) == n
  {
    var digits := NatToString(n);
    var pad := if |digits| < width then width - |digits| else 0;
    LeadingZerosLemma(pad, digits);
    Zeros(pad) + digits
  }

  /** Leading zeros do not change a digit string's value. */
  lemma {:induction false} LeadingZerosLemma(k: nat, s: string)
    requires AllDigits(s)
    ensures AllDigits(Zeros(k) + s)
    ensures DigitsValue(Zeros(k) + s) == DigitsValue(s)
    decreases |s|
  {
    var t := Zeros(k) + s;
    assert AllDigits(t) by {
      forall i | 0 <= i < |t| ensures IsDigit(t[i]) {
        if i < k { assert t[i] == '0'; } else { assert t[i] == s[i - k]; }
      }
    }
    if s == [] {
      assert t == Zeros(k);
      ZerosValue(k);
    } else {
      var s' := s[..|s| - 1];
      assert AllDigits(s');
      assert t[..|t| - 1] == Zeros(k) + s';
      LeadingZerosLemma(k, s');
    }
  }

  lemma {:induction false} ZerosValue(k: nat)
    ensures DigitsValue(Zeros(k)) == 0
  {
    if k > 0 {
      assert Zeros(k)[..k - 1] == Zeros(k - 1);
      ZerosValue(k - 1);
    }
  }

  /** Two-digit fields such as `%m`, `%d`, `%H`, `%M` are exactly two characters. */
  lemma TwoDigitField(n: nat)
    requires n < 100
    ensures |ZeroPad(n, 2)| == 2
  {
    if n >= 10 {
      assert NatToString(n) == NatToString(n / 10) + [DigitChar(n % 10)];
    }
  }

  /** `NatToString` is the inverse of `DigitsValue` on canonical digit strings
      (non-empty, no superfluous leading zero). */
  lemma {:induction false} NatToStringOfDigits(s: string)
    requires |s| >= 1 && AllDigits(s)
    requires s[0] == '0' ==> |s| == 1
    ensures NatToString(DigitsValue(s)) == s
    decreases |s|
  {
    if |s| == 1 {
      assert DigitsValue(s) == DigitValue(s[0]) by {
        assert s[..0] == [];
      }
    } else {
      var p := s[..|s| - 1];
      NatToStringOfDigits(p);
      assert p[0] == s[0];
      PositiveLeading(p);
      var n := DigitsValue(s);
      assert n / 10 == DigitsValue(p) && n % 10 == DigitValue(s[|s| - 1]);
      assert s == p + [s[|s| - 1]];
    }
  }

  lemma {:induction false} PositiveLeading(s: string)
    requires |s| >= 1 && AllDigits(s) && s[0] != '0'
    ensures DigitsValue(s) >= 1
    decreases |s|
  {
    if |s| > 1 {
      var p := s[..|s| - 1];
      assert p[0] == s[0];
      PositiveLeading(p);
    } else {
      assert s[..0] == [];
    }
  }
}

=== FILE: form_url_encoded.dfy ===
/** `application/x-www-form-urlencoded` serialisation as Ruby's
    `URI.encode_www_form` performs it (the serializer of section 5.2 of the
    WHATWG URL Standard, plus Ruby's key-only form for a `nil` value), and the
    matching parser, which recovers every pair from the serialised string. */
module FormUrlEncoded {
  import opened Wrappers
  import opened Strings

  type byte = b: int | 0 <= b < 256

  /** One entry of the parameter hash: `nil` values are written as the bare key. */
  datatype Param = Param(key: string, value: Option<string>)

  /** A decoded pair: names and values come back as the UTF-8 bytes they were sent as. */
  datatype Pair = Pair(name: seq<byte>, value: Option<seq<byte>>)

  // ---------------------------------------------------------------- UTF-8

  /** UTF-8 encoding of one Unicode scalar value. */
  function Utf8(c: char): (bs: seq<byte>)
    ensures 1 <= |bs| <= 4
    ensures |bs| == 1 <==> c as int < 0x80
    ensures |bs| == 1 ==> bs[0] == c as int
  {
    var cp := c as int;
    if cp < 0x80 then [cp]
    else if cp < 0x800 then [0xC0 + cp / 0x40, 0x80 + cp % 0x40]
    else if cp < 0x1_0000 then [0xE0 + cp / 0x1000, 0x80 + (cp / 0x40) % 0x40, 0x80 + cp % 0x40]
    else [0xF0 + cp / 0x4_0000, 0x80 + (cp / 0x1000) % 0x40, 0x80 + (cp / 0x40) % 0x40, 0x80 + cp % 0x40]
  }

  function Utf8String(s: string): (bs: seq<byte>)
    ensures |bs| >= |s|
  {
    if s == [] then [] else Utf8(s[0]) + Utf8String(s[1..])
  }

  // ---------------------------------------------------------------- encoding

  /** The characters the serializer leaves as they are: `*-._`, digits and ASCII letters. */
  predicate IsUnreserved(c: char) {
    || ('a' <= c <= 'z') || ('A' <= c <= 'Z') || ('0' <= c <= '9')
    || c == '*' || c == '-' || c == '.' || c == '_'
  }

  predicate IsHexDigit(c: char) {
    ('0' <= c <= '9') || ('A' <= c <= 'F') || ('a' <= c <= 'f')
  }

  function HexValue(c: char): (v: int)
    requires IsHexDigit(c)
    ensures 0 <= v < 16
  {
    if '0' <= c <= '9' then c as int - 48
    else if 'A' <= c <= 'F' then c as int - 55
    else c as int - 87
  }

  /** Upper-case hexadecimal digit, as the serializer emits. */
  function HexDigit(v: int): (c: char)
    requires 0 <= v < 16
    ensures IsHexDigit(c) && HexValue(c) == v
  {
    if v < 10 then (48 + v) as char else (55 + v) as char
  }

  /** The characters an encoded component can contain. */
  predicate IsEncodedChar(c: char) {
    IsUnreserved(c) || c == '+' || c == '%'
  }

  function PercentBytes(bs: seq<byte>): (s: string)
    ensures |s| == 3 * |bs|
    ensures forall i :: 0 <= i < |s| ==> IsEncodedChar(s[i])
  {
    if bs == [] then []
    else ['%', HexDigit(bs[0] / 16), HexDigit(bs[0] % 16)] + PercentBytes(bs[1..])
  }

  function EncodeChar(c: char): (s: string)
    ensures |s| >= 1
    ensures forall i :: 0 <= i < |s| ==> IsEncodedChar(s[i])
    ensures IsUnreserved(c) ==> s == [c]
  {
    if IsUnreserved(c) then [c]
    else if c == ' ' then "+"
    else PercentBytes(Utf8(c))
  }

  /** `URI.encode_www_form_component`: unreserved characters stay, a space
      becomes '+', every other byte of the UTF-8 form becomes `%XX`. */
  function EncodeComponent(s: string): (e: string)
    ensures |e| >= |s|
    ensures forall i :: 0 <= i < |e| ==> IsEncodedChar(e[i])
    ensures (forall i :: 0 <= i < |s| ==> IsUnreserved(s[i])) ==> e == s
  {
    if s == [] then []
    else
      var e := EncodeChar(s[0]) + EncodeComponent(s[1..]);
      assert forall i :: 0 <= i < |e| ==> IsEncodedChar(e[i]) by {
        var h := EncodeChar(s[0]);
        forall i | 0 <= i < |e| ensures IsEncodedChar(e[i]) {
          if i < |h| { assert e[i] == h[i]; } else { assert e[i] == EncodeComponent(s[1..])[i - |h|]; }
        }
      }
      e
  }

  function EncodeParam(p: Param): (e: string)
    ensures forall i :: 0 <= i < |e| ==> IsEncodedChar(e[i]) || e[i] == '='
  {
    match p.value
    case None => EncodeComponent(p.key)
    case Some(v) => EncodeComponent(p.key) + "=" + EncodeComponent(v)
  }

  /** `URI.encode_www_form`: the encoded pairs joined by '&' in hash order. */
  function Serialize(ps: seq<Param>): string {
    Join(EncodeParams(ps), '&')
  }

  function EncodeParams(ps: seq<Param>): (parts: seq<string>)
    ensures |parts| == |ps|
    ensures forall i :: 0 <= i < |ps| ==> parts[i] == EncodeParam(ps[i])
  {
    if ps == [] then [] else [EncodeParam(ps[0])] + EncodeParams(ps[1..])
  }

  // ---------------------------------------------------------------- decoding

  /** Percent-decoding of one component: '+' is a space, `%XX` is one byte,
      anything else stands for its own UTF-8 bytes. */
  function DecodeComponent(s: string): seq<byte>
    decreases |s|
  {
    if s == [] then []
    else if s[0] == '+' then [0x20] + DecodeComponent(s[1..])
    else if s[0] == '%' && |s| >= 3 && IsHexDigit(s[1]) && IsHexDigit(s[2]) then
      [16 * HexValue(s[1]) + HexValue(s[2])] + DecodeComponent(s[3..])
    else Utf8(s[0]) + DecodeComponent(s[1..])
  }

  /** A piece without '=' is a key with no value (Ruby's form of a `nil` value). */
  function ParsePiece(piece: string): Pair {
    match IndexOf(piece, '=')
    case None => Pair(DecodeComponent(piece), None)
    case Some(i) => Pair(DecodeComponent(piece[..i]), Some(DecodeComponent(piece[i + 1..])))
  }

  function Parse(s: string): (pairs: seq<Pair>)
    ensures |pairs| >= 1
  {
    var pieces := Split(s, '&');
    seq(|pieces|, i requires 0 <= i < |pieces| => ParsePiece(pieces[i]))
  }

  /** What a parameter looks like once it has been sent and parsed. */
  function Decoded(p: Param): Pair {
    Pair(Utf8String(p.key), match p.value case None => None case Some(v) => Some(Utf8String(v)))
  }

  // ---------------------------------------------------------------- round trip

  lemma {:induction false} DecodePercentBytes(bs: seq<byte>, rest: string)
    ensures DecodeComponent(PercentBytes(bs) + rest) == bs + DecodeComponent(rest)
    decreases |bs|
  {
    if bs != [] {
      var s := PercentBytes(bs) + rest;
      var b := bs[0];
      assert s == ['%', HexDigit(b / 16), HexDigit(b % 16)] + (PercentBytes(bs[1..]) + rest);
      assert s[3..] == PercentBytes(bs[1..]) + rest;
      DecodePercentBytes(bs[1..], rest);
      assert bs == [b] + bs[1..];
    } else {
      assert PercentBytes(bs) + rest == rest;
    }
  }

  lemma DecodeEncodeChar(c: char, rest: string)
    ensures DecodeComponent(EncodeChar(c) + rest) == Utf8(c) + DecodeComponent(rest)
  {
    if IsUnreserved(c) || c == ' ' {
      assert (EncodeChar(c) + rest)[1..] == rest;
    } else {
      DecodePercentBytes(Utf8(c), rest);
    }
  }

  lemma {:induction false} DecodeEncodeAppend(s: string, rest: string)
    ensures DecodeComponent(EncodeComponent(s) + rest) == Utf8String(s) + DecodeComponent(rest)
    decreases |s|
  {
    if s == [] {
      assert EncodeComponent(s) + rest == rest;
    } else {
      assert EncodeComponent(s) + rest == EncodeChar(s[0]) + (EncodeComponent(s[1..]) + rest);
      DecodeEncodeChar(s[0], EncodeComponent(s[1..]) + rest);
      DecodeEncodeAppend(s[1..], rest);
    }
  }

  /** Decoding an encoded component gives back the UTF-8 bytes of the original. */
  lemma DecodeEncode(s: string)
    ensures DecodeComponent(EncodeComponent(s)) == Utf8String(s)
  {
    DecodeEncodeAppend(s, []);
    assert EncodeComponent(s) + [] == EncodeComponent(s);
  }

  lemma EncodedExcludes(e: string, c: char)
    requires forall i :: 0 <= i < |e| ==> IsEncodedChar(e[i])
    requires !IsEncodedChar(c)
    ensures c !in e
  {
    forall i | 0 <= i < |e| ensures e[i] != c {
      assert IsEncodedChar(e[i]);
    }
  }

  lemma ParamExcludes(e: string, c: char)
    requires forall i :: 0 <= i < |e| ==> IsEncodedChar(e[i]) || e[i] == '='
    requires !IsEncodedChar(c) && c != '='
    ensures c !in e
  {
    forall i | 0 <= i < |e| ensures e[i] != c {
      assert IsEncodedChar(e[i]) || e[i] == '=';
    }
  }

  lemma ParseEncodedParam(p: Param)
    ensures ParsePiece(EncodeParam(p)) == Decoded(p)
  {
    var k := EncodeComponent(p.key);
    EncodedExcludes(k, '=');
    DecodeEncode(p.key);
    match p.value
    case None =>
    case Some(v) =>
      var s := k + "=" + EncodeComponent(v);
      IndexAfter(k, '=', EncodeComponent(v));
      assert s[..|k|] == k;
      assert s[|k| + 1..] == EncodeComponent(v);
      DecodeEncode(v);
  }

  /** Round trip: parsing the serialised parameters gives back every key and
      value, in order, with `nil` values still absent. */
  lemma ParseSerialize(ps: seq<Param>)
    requires |ps| >= 1
    ensures Parse(Serialize(ps)) == seq(|ps|, i requires 0 <= i < |ps| => Decoded(ps[i]))
  {
    var parts := EncodeParams(ps);
    forall i | 0 <= i < |parts| ensures '&' !in parts[i] {
      ParamExcludes(parts[i], '&');
    }
    SplitJoin(parts, '&');
    forall i | 0 <= i < |ps| ensures ParsePiece(parts[i]) == Decoded(ps[i]) {
      ParseEncodedParam(ps[i]);
    }
  }
}

=== FILE: lesson_path.dfy ===
/** The `Path` class: where a lesson recording is stored. The start time is
    broken down in the process's local time (a fixed UTC offset here) and
    formatted with `strftime`:
      directory  `<destination_dir>/%Y/%B`
      file name  `lesson_%A_%F_%H%M.mp4`   (`%F` is `%Y-%m-%d`)
    The directory is created, with its missing ancestors, only when absent. */
module LessonPath {
  import opened Wrappers
  import opened Decimal
  import opened Strings
  import opened CivilTime

  const MonthNames: seq<string> := ["January", "February", "March", "April", "May", "June", "July",
                                    "August", "September", "October", "November", "December"]

  const WeekdayNames: seq<string> := ["Sunday", "Monday", "Tuesday", "Wednesday", "Thursday",
                                      "Friday", "Saturday"]

  /** `%B`. */
  function MonthName(m: int): string
    requires 1 <= m <= 12
  {
    MonthNames[m - 1]
  }

  /** `%A`. */
  function WeekdayName(w: int): string
    requires 0 <= w < 7
  {
    WeekdayNames[w]
  }

  /** `%Y`: at least four digits, and a '-' in front for years before 0. */
  function YearField(y: int): (s: string)
    ensures |s| >= 4 && (y >= 0 ==> |s| == 4 || s[0] != '0')
    ensures y >= 0 ==> AllDigits(s) && DigitsValue(s) == y
    ensures y < 0 ==> |s| >= 5 && s[0] == '-' && AllDigits(s[1..]) && DigitsValue(s[1..]) == -y
    ensures y < 0 ==> |s| == 5 || s[1] != '0'
  {
    if y >= 0 then ZeroPad(y, 4) else "-" + ZeroPad(-y, 4)
  }

  /** `%m`, `%d`, `%H`, `%M`. */
  function TwoDigits(n: int): (s: string)
    requires 0 <= n < 100
    ensures |s| == 2 && AllDigits(s) && DigitsValue(s) == n
  {
    TwoDigitField(n);
    ZeroPad(n, 2)
  }

  /** The fields of the start time that the destination uses; the seconds are not among them. */
  datatype Stamp = Stamp(wday: int, year: int, month: int, day: int, hour: int, minute: int)

  predicate WellFormed(st: Stamp) {
    0 <= st.wday < 7 && 1 <= st.month <= 12 && 1 <= st.day <= 31 && 0 <= st.hour < 24 && 0 <= st.minute < 60
  }

  function StampOf(tm: Tm): (st: Stamp)
    requires Valid(tm)
    ensures WellFormed(st)
  {
    Stamp(tm.wday, tm.year, tm.month, tm.day, tm.hour, tm.minute)
  }

  /** `Time.at(start_time)` in a zone `utcOffset` seconds east of UTC, as far as
      the destination needs it. */
  function LocalStamp(startTime: int, utcOffset: int): (st: Stamp)
    ensures WellFormed(st)
  {
    StampOf(Breakdown(startTime + utcOffset))
  }

  /** `%F`. */
  function IsoDate(st: Stamp): string
    requires WellFormed(st)
  {
    YearField(st.year) + "-" + TwoDigits(st.month) + "-" + TwoDigits(st.day)
  }

  /** The literal layout of `'lesson_%A_%F_%H%M.mp4'` around its fields. */
  function Layout(weekday: string, date: string, hh: string, mm: string): string {
    "lesson_" + ((weekday + "_" + date) + "_" + hh + mm) + ".mp4"
  }

  /** `Path#file_name`: `strftime('lesson_%A_%F_%H%M.mp4')`. */
  function FileName(st: Stamp): string
    requires WellFormed(st)
  {
    Layout(WeekdayName(st.wday), IsoDate(st), TwoDigits(st.hour), TwoDigits(st.minute))
  }

  /** `Path#path` for a given start stamp. */
  function DirectoryOf(st: Stamp, destinationDir: string): string
    requires WellFormed(st)
  {
    destinationDir + "/" + YearField(st.year) + "/" + MonthName(st.month)
  }

  function PathOf(st: Stamp, destinationDir: string): string
    requires WellFormed(st)
  {
    DirectoryOf(st, destinationDir) + "/" + FileName(st)
  }

  /** `Path#path`: `<destination_dir>/<year>/<month name>`. */
  function Directory(startTime: int, utcOffset: int, destinationDir: string): (d: string)
    ensures |d| > |destinationDir|
  {
    DirectoryOf(LocalStamp(startTime, utcOffset), destinationDir)
  }

  /** Every lesson directory lies under the destination directory. */
  lemma DirectoryUnderDestination(startTime: int, utcOffset: int, destinationDir: string)
    ensures var d := Directory(startTime, utcOffset, destinationDir);
      |d| > |destinationDir| && d[..|destinationDir| + 1] == destinationDir + "/"
  {
  }

  /** `Path#full_path` (its directory side effect is `Prepare`). */
  function FullPath(startTime: int, utcOffset: int, destinationDir: string): string {
    PathOf(LocalStamp(startTime, utcOffset), destinationDir)
  }

  // ---------------------------------------------------------------- directories

  /** The path itself and every prefix of it that ends just before a '/'. */
  function Ancestors(p: string): set<string> {
    set i | 0 < i <= |p| && (i == |p| || p[i] == '/') :: p[..i]
  }

  /** `Path#prepare_path` over the set of existing directories:
      `FileUtils.makedirs(path) unless Dir.exists?(path)`. */
  function Prepare(dirs: set<string>, p: string): (r: set<string>)
    ensures p != [] ==> p in r
    ensures dirs <= r && r <= dirs + Ancestors(p)
    ensures p !in dirs ==> Ancestors(p) <= r
    ensures p in dirs ==> r == dirs
  {
    if p in dirs then dirs
    else
      assert p != [] ==> p == p[..|p|];
      dirs + Ancestors(p)
  }

  /** Preparing a directory twice is the same as preparing it once. */
  lemma PrepareIdempotent(dirs: set<string>, p: string)
    ensures Prepare(Prepare(dirs, p), p) == Prepare(dirs, p)
  {
  }

  // ---------------------------------------------------------------- parsing file names

  function WeekdayIndex(name: string): (r: Option<int>)
    ensures r.Some? ==> 0 <= r.value < 7 && WeekdayName(r.value) == name
  {
    if name == "Sunday" then Some(0) else if name == "Monday" then Some(1)
    else if name == "Tuesday" then Some(2) else if name == "Wednesday" then Some(3)
    else if name == "Thursday" then Some(4) else if name == "Friday" then Some(5)
    else if name == "Saturday" then Some(6) else None
  }

  /** Inverse of `YearField`. */
  function ParseYear(s: string): Option<int> {
    if |s| >= 2 && s[0] == '-' && AllDigits(s[1..]) then Some(0 - DigitsValue(s[1..]))
    else if |s| >= 1 && s[0] != '-' && AllDigits(s) then Some(DigitsValue(s))
    else None
  }

  /** Inverse of `IsoDate`, reading the fixed-width month and day from the end. */
  function ParseDate(d: string): Option<(int, int, int)> {
    if |d| < 7 || d[|d| - 3] != '-' || d[|d| - 6] != '-' then None
    else if !AllDigits(d[|d| - 2..]) || !AllDigits(d[|d| - 5..|d| - 3]) then None
    else match ParseYear(d[..|d| - 6])
      case None => None
      case Some(y) => Some((y, DigitsValue(d[|d| - 5..|d| - 3]), DigitsValue(d[|d| - 2..])))
  }

  /** Reads back the fields of a `lesson_<Weekday>_<YYYY-MM-DD>_<HHMM>.mp4` name. */
  function ParseFileName(name: string): Option<Stamp> {
    if |name| < 16 || name[..7] != "lesson_" || name[|name| - 4..] != ".mp4" then None
    else ParseBody(name[7..|name| - 4])
  }

  /** `<Weekday>_<YYYY-MM-DD>_<HHMM>`, the time read from the fixed-width end. */
  function ParseBody(body: string): Option<Stamp> {
    if |body| < 5 || body[|body| - 5] != '_' || !AllDigits(body[|body| - 4..]) then None
    else
      var hhmm := body[|body| - 4..];
      match ParseHead(body[..|body| - 5])
      case None => None
      case Some((w, y, m, d)) => Some(Stamp(w, y, m, d, DigitsValue(hhmm[..2]), DigitsValue(hhmm[2..])))
  }

  /** `<Weekday>_<YYYY-MM-DD>`, split at the first '_'. */
  function ParseHead(head: string): Option<(int, int, int, int)> {
    match IndexOf(head, '_')
    case None => None
    case Some(i) =>
      match (WeekdayIndex(head[..i]), ParseDate(head[i + 1..]))
      case (Some(w), Some((y, m, d))) => Some((w, y, m, d))
      case _ => None
  }

  lemma ParseYearField(y: int)
    ensures ParseYear(YearField(y)) == Some(y)
  {
    if y < 0 {
      assert YearField(y)[1..] == ZeroPad(-y, 4);
    }
  }

  lemma ParseIsoDate(st: Stamp)
    requires WellFormed(st)
    ensures ParseDate(IsoDate(st)) == Some((st.year, st.month, st.day))
  {
    var ys, ms, ds := YearField(st.year), TwoDigits(st.month), TwoDigits(st.day);
    var d := IsoDate(st);
    assert d == ys + "-" + ms + "-" + ds;
    assert d[|d| - 2..] == ds;
    assert d[|d| - 5..|d| - 3] == ms;
    assert d[..|d| - 6] == ys;
    ParseYearField(st.year);
  }

  lemma ParseHeadLayout(w: string, date: string)
    requires '_' !in w
    ensures ParseHead(w + "_" + date)
      == match (WeekdayIndex(w), ParseDate(date))
         case (Some(wd), Some((y, m, d))) => Some((wd, y, m, d))
         case _ => None
  {
    var head := w + "_" + date;
    IndexAfter(w, '_', date);
    assert head[..|w|] == w && head[|w| + 1..] == date;
  }

  lemma ParseBodyLayout(head: string, hh: string, mm: string)
    requires |hh| == 2 && |mm| == 2 && AllDigits(hh) && AllDigits(mm)
    ensures ParseBody(head + "_" + hh + mm)
      == match ParseHead(head)
         case None => None
         case Some((w, y, m, d)) => Some(Stamp(w, y, m, d, DigitsValue(hh), DigitsValue(mm)))
  {
    var body := head + "_" + hh + mm;
    assert body[|body| - 4..] == hh + mm;
    assert body[..|body| - 5] == head;
    assert body[|body| - 5] == '_';
    assert (hh + mm)[..2] == hh && (hh + mm)[2..] == mm;
    assert AllDigits(hh + mm);
  }

  lemma ParseNameLayout(body: string)
    requires |body| >= 5
    ensures ParseFileName("lesson_" + body + ".mp4") == ParseBody(body)
  {
    var name := "lesson_" + body + ".mp4";
    assert name[..7] == "lesson_";
    assert name[|name| - 4..] == ".mp4";
    assert name[7..|name| - 4] == body;
  }

  /** Round trip: the file name records the weekday, date, hour and minute of
      the start time, and all of them can be read back from it. */
  lemma ParseFileNameRoundTrip(st: Stamp)
    requires WellFormed(st)
    ensures ParseFileName(FileName(st)) == Some(st)
  {
    var w, date := WeekdayName(st.wday), IsoDate(st);
    var hh, mm := TwoDigits(st.hour), TwoDigits(st.minute);
    assert '_' !in w;
    assert WeekdayIndex(w) == Some(st.wday);
    ParseIsoDate(st);
    ParseHeadLayout(w, date);
    ParseBodyLayout(w + "_" + date, hh, mm);
    ParseNameLayout((w + "_" + date) + "_" + hh + mm);
  }

  /** Inverse of `%B`. */
  function MonthIndex(name: string): (r: Option<int>)
    ensures r.Some? ==> 1 <= r.value <= 12 && MonthName(r.value) == name
  {
    if name == "January" then Some(1) else if name == "February" then Some(2)
    else if name == "March" then Some(3) else if name == "April" then Some(4)
    else if name == "May" then Some(5) else if name == "June" then Some(6)
    else if name == "July" then Some(7) else if name == "August" then Some(8)
    else if name == "September" then Some(9) else if name == "October" then Some(10)
    else if name == "November" then Some(11) else if name == "December" then Some(12)
    else None
  }

  /** Reads the year and the month back from the last two components of a
      `<destination_dir>/<%Y>/<%B>` directory. */
  function ParseDirectory(d: string): Option<(int, int)> {
    match (ParseYear(BaseName(DirName(d))), MonthIndex(BaseName(d)))
    case (Some(y), Some(m)) => Some((y, m))
    case _ => None
  }

  lemma MonthIndexName(m: int)
    requires 1 <= m <= 12
    ensures MonthIndex(MonthName(m)) == Some(m)
  {
  }

  /** The directory records the year and the month of its stamp. */
  lemma ParseDirectoryOf(st: Stamp, destinationDir: string)
    requires WellFormed(st)
    ensures ParseDirectory(DirectoryOf(st, destinationDir)) == Some((st.year, st.month))
  {
    var y, m := YearField(st.year), MonthName(st.month);
    assert '/' !in m;
    YearFieldHasNoSlash(st.year);
    BaseNameAfterSlash(destinationDir + "/" + y, m);
    DirNameAfterSlash(destinationDir + "/" + y, m);
    BaseNameAfterSlash(destinationDir, y);
    ParseYearField(st.year);
    MonthIndexName(st.month);
  }

  /** `Path#full_path` is the lesson directory and the file name joined by '/'.
      The directory's `%Y` and `%B` components read back as the year and month
      of the local start time, which are also the year and month the file name
      records. */
  lemma DirectoryRecordsStart(startTime: int, utcOffset: int, destinationDir: string)
    ensures var st, full := LocalStamp(startTime, utcOffset), FullPath(startTime, utcOffset, destinationDir);
      && DirName(full) == Directory(startTime, utcOffset, destinationDir)
      && ParseFileName(BaseName(full)) == Some(st)
      && ParseDirectory(DirName(full)) == Some((st.year, st.month))
  {
    var st := LocalStamp(startTime, utcOffset);
    FileNameHasNoSlash(st);
    DirNameAfterSlash(DirectoryOf(st, destinationDir), FileName(st));
    BaseNameAfterSlash(DirectoryOf(st, destinationDir), FileName(st));
    ParseFileNameRoundTrip(st);
    ParseDirectoryOf(st, destinationDir);
  }

  // ---------------------------------------------------------------- collisions

  /** The local minute a stamp stands for, counted from the Epoch. */
  function MinuteOf(st: Stamp): int
    requires WellFormed(st)
  {
    1440 * (DaysBeforeYear(st.year) + DaysBeforeMonth(st.year, st.month) + st.day - 1)
      + 60 * st.hour + st.minute
  }

  /** The fields a file name records fix the minute of the start time. */
  lemma StampFixesMinute(startTime: int, utcOffset: int)
    ensures (startTime + utcOffset) / 60 == MinuteOf(LocalStamp(startTime, utcOffset))
  {
    var t := startTime + utcOffset;
    var tm := Breakdown(t);
    PosixDays(tm);
    SplitSeconds(t, DaysBeforeYear(tm.year) + tm.yday, tm.hour, tm.minute, tm.second);
  }

  /** Everything the destination uses depends on the minute alone. */
  lemma StampSameMinute(t1: int, t2: int, utcOffset: int)
    requires (t1 + utcOffset) / 60 == (t2 + utcOffset) / 60
    ensures LocalStamp(t1, utcOffset) == LocalStamp(t2, utcOffset)
  {
    BreakdownSameMinute(t1 + utcOffset, t2 + utcOffset);
    StampOfFields(Breakdown(t1 + utcOffset), Breakdown(t2 + utcOffset));
  }

  lemma StampOfFields(a: Tm, b: Tm)
    requires Valid(a) && Valid(b)
    requires a.year == b.year && a.month == b.month && a.day == b.day
    requires a.hour == b.hour && a.minute == b.minute && a.wday == b.wday
    ensures StampOf(a) == StampOf(b)
  {
  }

  lemma NoSlashInLayout(w: string, date: string, hh: string, mm: string)
    requires '/' !in w && '/' !in date && '/' !in hh && '/' !in mm
    ensures '/' !in Layout(w, date, hh, mm)
  {
  }

  lemma FileNameHasNoSlash(st: Stamp)
    requires WellFormed(st)
    ensures '/' !in FileName(st)
  {
    YearFieldHasNoSlash(st.year);
    DigitsHaveNoSlash(TwoDigits(st.month));
    DigitsHaveNoSlash(TwoDigits(st.day));
    DigitsHaveNoSlash(TwoDigits(st.hour));
    DigitsHaveNoSlash(TwoDigits(st.minute));
    var date := IsoDate(st);
    assert date == YearField(st.year) + "-" + TwoDigits(st.month) + "-" + TwoDigits(st.day);
    assert '/' !in WeekdayName(st.wday);
    NoSlashInLayout(WeekdayName(st.wday), date, TwoDigits(st.hour), TwoDigits(st.minute));
  }

  lemma DigitsHaveNoSlash(s: string)
    requires AllDigits(s)
    ensures '/' !in s
  {
  }

  lemma YearFieldHasNoSlash(y: int)
    ensures '/' !in YearField(y)
  {
    if y >= 0 {
      DigitsHaveNoSlash(ZeroPad(y, 4));
    } else {
      DigitsHaveNoSlash(ZeroPad(-y, 4));
    }
  }

  /** Distinct stamps give distinct paths under the same destination directory. */
  lemma PathOfInjective(a: Stamp, b: Stamp, destinationDir: string)
    requires WellFormed(a) && WellFormed(b)
    requires PathOf(a, destinationDir) == PathOf(b, destinationDir)
    ensures a == b
  {
    FileNameHasNoSlash(a);
    FileNameHasNoSlash(b);
    BaseNameAfterSlash(DirectoryOf(a, destinationDir), FileName(a));
    BaseNameAfterSlash(DirectoryOf(b, destinationDir), FileName(b));
    ParseFileNameRoundTrip(a);
    ParseFileNameRoundTrip(b);
  }

  /** Two lessons get the same destination exactly when they start in the
      same local minute: the seconds are dropped, nothing else is. */
  lemma FullPathCollision(t1: int, t2: int, utcOffset: int, destinationDir: string)
    ensures FullPath(t1, utcOffset, destinationDir) == FullPath(t2, utcOffset, destinationDir)
        <==> (t1 + utcOffset) / 60 == (t2 + utcOffset) / 60
  {
    var a, b := LocalStamp(t1, utcOffset), LocalStamp(t2, utcOffset);
    StampFixesMinute(t1, utcOffset);
    StampFixesMinute(t2, utcOffset);
    if PathOf(a, destinationDir) == PathOf(b, destinationDir) {
      PathOfInjective(a, b, destinationDir);
    }
    if (t1 + utcOffset) / 60 == (t2 + utcOffset) / 60 {
      StampSameMinute(t1, t2, utcOffset);
    }
  }

  // ---------------------------------------------------------------- example

  /** 1700000000 seconds after the Epoch is Tuesday 2023-11-14 22:13:20 UTC:
      the POSIX formula gives that second for that date, so the breakdown of
      the second is that date. */
  lemma ExampleStamp(t: int)
    requires t == 1700000000
    ensures LocalStamp(t, 0) == Stamp(2, 2023, 11, 14, 22, 13)
  {
    var tm := Tm(2023, 11, 14, 22, 13, 20, 317, 2);
    assert Valid(tm);
    assert PosixSeconds(tm) == t;
    BreakdownPosix(tm);
  }

  /** A two-digit field spelled out digit by digit. */
  lemma TwoDigitsSpelled(n: int)
    requires 0 <= n < 100
    ensures TwoDigits(n) == [DigitChar(n / 10), DigitChar(n % 10)]
  {
    if n >= 10 {
      assert NatToString(n) == NatToString(n / 10) + [DigitChar(n % 10)];
    }
  }

  /** A four-digit year spelled out digit by digit. */
  lemma YearSpelled(y: int)
    requires 1000 <= y < 10000
    ensures YearField(y) == [DigitChar(y / 1000), DigitChar(y / 100 % 10), DigitChar(y / 10 % 10), DigitChar(y % 10)]
  {
    NatToStringStep(y);
    NatToStringStep(y / 10);
    assert y / 10 / 10 == y / 100;
    NatToStringStep(y / 100);
    assert y / 100 / 10 == y / 1000;
    assert NatToString(y / 1000) == [DigitChar(y / 1000)];
    var digits := NatToString(y);
    assert digits == [DigitChar(y / 1000), DigitChar(y / 100 % 10), DigitChar(y / 10 % 10), DigitChar(y % 10)];
    assert ZeroPad(y, 4) == Zeros(0) + digits;
  }

  lemma ExampleIsoDate(st: Stamp)
    requires st == Stamp(2, 2023, 11, 14, 22, 13)
    ensures IsoDate(st) == "2023-11-14"
  {
    ExampleYear(st.year);
    TwoDigitsSpelled(st.month);
    TwoDigitsSpelled(st.day);
    var y, m, d := YearField(st.year), TwoDigits(st.month), TwoDigits(st.day);
    assert y + "-" + m + "-" + d == "2023-11-14" by {
      assert y == "2023" && m == "11" && d == "14";
    }
  }

  lemma ExampleYear(y: int)
    requires y == 2023
    ensures YearField(y) == "2023"
  {
    YearSpelled(y);
    assert y / 1000 == 2 && y / 100 % 10 == 0 && y / 10 % 10 == 2 && y % 10 == 3;
  }

  lemma ExampleFileName(st: Stamp)
    requires st == Stamp(2, 2023, 11, 14, 22, 13)
    ensures FileName(st) == "lesson_Tuesday_2023-11-14_2213.mp4"
  {
    ExampleIsoDate(st);
    TwoDigitsSpelled(st.hour);
    TwoDigitsSpelled(st.minute);
    ExampleLayout(WeekdayName(st.wday), IsoDate(st), TwoDigits(st.hour), TwoDigits(st.minute));
  }

  /** The literal characters around the example's fields. */
  lemma ExampleLayout(w: string, date: string, hh: string, mm: string)
    requires w == "Tuesday" && date == "2023-11-14" && hh == "22" && mm == "13"
    ensures Layout(w, date, hh, mm) == "lesson_Tuesday_2023-11-14_2213.mp4"
  {
  }

  lemma ExamplePathOf(st: Stamp)
    requires st == Stamp(2, 2023, 11, 14, 22, 13)
    ensures PathOf(st, "/lessons") == "/lessons/2023/November/lesson_Tuesday_2023-11-14_2213.mp4"
  {
    ExampleFileName(st);
    ExampleDirectory(st);
    ExampleJoin(DirectoryOf(st, "/lessons"), FileName(st));
  }

  lemma ExampleJoin(d: string, f: string)
    requires d == "/lessons/2023/November" && f == "lesson_Tuesday_2023-11-14_2213.mp4"
    ensures d + "/" + f == "/lessons/2023/November/lesson_Tuesday_2023-11-14_2213.mp4"
  {
  }

  lemma ExampleDirectory(st: Stamp)
    requires st == Stamp(2, 2023, 11, 14, 22, 13)
    ensures DirectoryOf(st, "/lessons") == "/lessons/2023/November"
  {
    ExampleYear(st.year);
    var y, m := YearField(st.year), MonthName(st.month);
    assert "/lessons" + "/" + y + "/" + m == "/lessons/2023/November" by {
      assert y == "2023" && m == "November";
    }
  }

  /** Under a destination directory `/lessons`, that lesson is stored as below. */
  lemma ExampleFullPath(t: int)
    requires t == 1700000000
    ensures FullPath(t, 0, "/lessons") == "/lessons/2023/November/lesson_Tuesday_2023-11-14_2213.mp4"
  {
    ExampleStamp(t);
    ExamplePathOf(LocalStamp(t, 0));
  }
}

=== FILE: movie_requests.dfy ===
/** The requests `Movie` sends: the session login, and the listing of chats
    with its query string and `Authorization` header. */
module MovieRequests {
  import opened Wrappers
  import opened Decimal
  import opened FormUrlEncoded
  import opened Strings

  const BaseUrl := "https://www.cambly.com"
  const UserAgent := "Mozilla/5.0 (Macintosh; Intel Mac OS X 10_13_6) AppleWebKit/537.36 (KHTML, like Gecko) Chrome/81.0.4044.138 Safari/537.36"
  const JsonContentType := "application/json; charset=UTF-8"
  const AcceptJson := "application/json, text/javascript, */*; q=0.01"
  const TokenPrefix := "Cambly session-token='"

  datatype Header = Header(name: string, value: string)

  /** The `result` object of the login response; either key may be missing (`nil`). */
  datatype Session = Session(token: Option<string>, userId: Option<string>)

  /** `Movie#session_url`. */
  function SessionUrl(): string {
    BaseUrl + "/api/sessions"
  }

  /** `Movie#headers`, sent with the login. */
  function LoginHeaders(): seq<Header> {
    [Header("User-Agent", UserAgent), Header("Content-Type", JsonContentType)]
  }

  /** `Movie#chars_url_params`: the four fixed parameters in this order, and
      `limit` last only when it is positive. */
  function QueryParams(userId: Option<string>, limit: int): (ps: seq<Param>)
    ensures |ps| == if limit > 0 then 5 else 4
    ensures ps[0] == Param("language", Some("en")) && ps[1] == Param("userId", userId)
    ensures ps[2] == Param("sort", Some("-1")) && ps[3] == Param("role", Some("student"))
    ensures limit > 0 ==> ps[4] == Param("limit", Some(IntToString(limit)))
  {
    var fixed := [Param("language", Some("en")), Param("userId", userId),
                  Param("sort", Some(IntToString(-1))), Param("role", Some("student"))];
    assert IntToString(-1) == "-1";
    if limit > 0 then fixed + [Param("limit", Some(IntToString(limit)))] else fixed
  }

  /** `Movie#encoded_chars_url_params`. */
  function ChatsQuery(userId: Option<string>, limit: int): string {
    Serialize(QueryParams(userId, limit))
  }

  /** `Movie#charts_url`. */
  function ChatsUrl(userId: Option<string>, limit: int): string {
    BaseUrl + "/api/chats?" + ChatsQuery(userId, limit)
  }

  /** The `Authorization` value; a missing token interpolates as the empty string. */
  function AuthorizationValue(token: Option<string>): string {
    TokenPrefix + token.GetOr("") + "'"
  }

  /** Reads the token back out of an `Authorization` value. */
  function TokenOf(value: string): Option<string> {
    if |value| >= |TokenPrefix| + 1 && value[..|TokenPrefix|] == TokenPrefix && value[|value| - 1] == '\''
    then Some(value[|TokenPrefix|..|value| - 1])
    else None
  }

  /** `Movie#list_headers`. */
  function ListHeaders(session: Session): seq<Header> {
    [Header("Accept", AcceptJson), Header("Authorization", AuthorizationValue(session.token))]
  }

  /** The header carries exactly the session token (`result['token']`), quoted. */
  lemma AuthorizationCarriesToken(session: Session)
    ensures ListHeaders(session)[1].name == "Authorization"
    ensures TokenOf(ListHeaders(session)[1].value) == Some(session.token.GetOr(""))
  {
    var v := AuthorizationValue(session.token);
    assert v[..|TokenPrefix|] == TokenPrefix;
    assert v[|TokenPrefix|..|v| - 1] == session.token.GetOr("");
  }

  /** On the wire, a `limit` pair appears exactly when the limit is positive,
      and then it carries the limit's decimal form; the other pairs come back
      as sent, in order. */
  lemma LimitOnTheWire(userId: Option<string>, limit: int)
    ensures var pairs := Parse(ChatsQuery(userId, limit));
      && |pairs| == (if limit > 0 then 5 else 4)
      && pairs[0] == Pair(Utf8String("language"), Some(Utf8String("en")))
      && pairs[1] == Decoded(Param("userId", userId))
      && pairs[2] == Pair(Utf8String("sort"), Some(Utf8String("-1")))
      && pairs[3] == Pair(Utf8String("role"), Some(Utf8String("student")))
      && (limit > 0 ==> pairs[4] == Pair(Utf8String("limit"), Some(Utf8String(IntToString(limit)))))
  {
    QueryPairs(userId, limit);
  }

  /** The query parses back into the decoded parameters, one pair each. */
  lemma QueryPairs(userId: Option<string>, limit: int)
    ensures var pairs, ps := Parse(ChatsQuery(userId, limit)), QueryParams(userId, limit);
      |pairs| == |ps| && forall i :: 0 <= i < |ps| ==> pairs[i] == Decoded(ps[i])
  {
    ParseSerialize(QueryParams(userId, limit));
  }

  /** For a user id made of unreserved characters (as the service's ids are),
      the query string is literally the one the listing endpoint expects. */
  lemma ChatsQueryText(userId: string, limit: int)
    requires AllUnreserved(userId)
    ensures ChatsQuery(Some(userId), limit)
      == "language=en&userId=" + userId + "&sort=-1&role=student"
         + (if limit > 0 then "&limit=" + IntToString(limit) else "")
  {
    var ps := QueryParams(Some(userId), limit);
    var parts := EncodeParams(ps);
    FixedParts(userId, limit);
    if limit > 0 {
      LimitPart(userId, limit);
      SpellOut(parts);
      JoinFive(parts[0], parts[1], parts[2], parts[3], parts[4]);
      QueryTextFive(userId, IntToString(limit));
    } else {
      SpellOut(parts);
      JoinFour(parts[0], parts[1], parts[2], parts[3]);
      QueryTextFour(userId);
    }
  }

  lemma FixedParts(userId: string, limit: int)
    requires AllUnreserved(userId)
    ensures var parts := EncodeParams(QueryParams(Some(userId), limit));
      && parts[0] == "language=en" && parts[1] == "userId=" + userId
      && parts[2] == "sort=-1" && parts[3] == "role=student"
  {
    UnreservedWords();
    PlainParam("language", "en");
    PlainParam("userId", userId);
    PlainParam("sort", "-1");
    PlainParam("role", "student");
    LiteralPairs(userId, "");
  }

  lemma LimitPart(userId: string, limit: int)
    requires limit > 0
    ensures EncodeParams(QueryParams(Some(userId), limit))[4] == "limit=" + IntToString(limit)
  {
    UnreservedWords();
    PlainParam("limit", IntToString(limit));
    LiteralPairs(userId, IntToString(limit));
  }

  lemma SpellOut(parts: seq<string>)
    requires 4 <= |parts| <= 5
    ensures |parts| == 4 ==> parts == [parts[0], parts[1], parts[2], parts[3]]
    ensures |parts| == 5 ==> parts == [parts[0], parts[1], parts[2], parts[3]] + [parts[4]]
  {
  }

  lemma LiteralPairs(userId: string, digits: string)
    ensures "language" + "=" + "en" == "language=en"
    ensures "userId" + "=" + userId == "userId=" + userId
    ensures "sort" + "=" + "-1" == "sort=-1"
    ensures "role" + "=" + "student" == "role=student"
    ensures "limit" + "=" + digits == "limit=" + digits
  {
  }

  lemma QueryTextFour(userId: string)
    ensures "language=en" + "&" + ("userId=" + userId) + "&" + "sort=-1" + "&" + "role=student"
      == "language=en&userId=" + userId + "&sort=-1&role=student" + ""
  {
  }

  lemma QueryTextFive(userId: string, digits: string)
    ensures "language=en" + "&" + ("userId=" + userId) + "&" + "sort=-1" + "&" + "role=student" + "&" + ("limit=" + digits)
      == "language=en&userId=" + userId + "&sort=-1&role=student" + ("&limit=" + digits)
  {
  }

  predicate AllUnreserved(s: string) {
    forall i :: 0 <= i < |s| ==> IsUnreserved(s[i])
  }

  lemma PlainParam(k: string, v: string)
    requires AllUnreserved(k) && AllUnreserved(v)
    ensures EncodeParam(Param(k, Some(v))) == k + "=" + v
  {
  }

  lemma JoinFour(a: string, b: string, c: string, d: string)
    ensures Join([a, b, c, d], '&') == a + "&" + b + "&" + c + "&" + d
  {
    assert [a, b, c, d][1..] == [b, c, d];
    assert [b, c, d][1..] == [c, d];
    assert [c, d][1..] == [d];
    assert Join([c, d], '&') == c + "&" + d;
    assert Join([b, c, d], '&') == b + "&" + (c + "&" + d);
    assert Join([a, b, c, d], '&') == a + "&" + (b + "&" + (c + "&" + d));
  }

  lemma JoinFive(a: string, b: string, c: string, d: string, e: string)
    ensures Join([a, b, c, d] + [e], '&') == a + "&" + b + "&" + c + "&" + d + "&" + e
  {
    assert ([a, b, c, d] + [e])[1..] == [b, c, d, e];
    assert [b, c, d, e][1..] == [c, d, e];
    assert [c, d, e][1..] == [d, e];
    assert [d, e][1..] == [e];
    assert Join([d, e], '&') == d + "&" + e;
    assert Join([c, d, e], '&') == c + "&" + (d + "&" + e);
    assert Join([b, c, d, e], '&') == b + "&" + (c + "&" + (d + "&" + e));
    assert Join([a, b, c, d] + [e], '&') == a + "&" + (b + "&" + (c + "&" + (d + "&" + e)));
  }

  lemma UnreservedWords()
    ensures AllUnreserved("language") && AllUnreserved("en") && AllUnreserved("userId")
    ensures AllUnreserved("sort") && AllUnreserved("-1") && AllUnreserved("role")
    ensures AllUnreserved("student") && AllUnreserved("limit")
  {
  }
}

=== FILE: movie_run.dfy ===
/** `Movie#save`: log in, list the chats, keep the rows that have a video, and
    download them one after another, all inside ONE `rescue`. The first
    `StandardError` anywhere, including in a single download, ends the run;
    it is reported and never escapes `save`. The network, the JSON bodies and the
    transfers are inputs: an `Option` per request and a transfer outcome per
    (URL, destination). */
module MovieRun {
  import opened Wrappers
  import opened MovieRequests
  import opened LessonPath

  // ---------------------------------------------------------------- rows

  /** The JSON value of a row's `hasVideoUrl` key. */
  datatype Flag = Missing | Null | Bool(b: bool) | OtherValue

  /** Ruby truthiness: everything but `nil` and `false`. */
  predicate Truthy(f: Flag) {
    !(f.Missing? || f.Null? || f == Bool(false))
  }

  /** One element of the listing's `result` array; a missing or non-numeric
      value is `None`. */
  datatype Row = Row(hasVideoUrl: Flag, videoUrl: Option<string>, startTime: Option<int>)

  predicate HasVideo(row: Row) {
    Truthy(row.hasVideoUrl)
  }

  /** `select { |v| v['hasVideoUrl'] }` in `Movie#fetch_list`. */
  function SelectVideoRows(rows: seq<Row>): (kept: seq<Row>)
    ensures |kept| <= |rows|
    ensures forall i :: 0 <= i < |kept| ==> HasVideo(kept[i])
  {
    if rows == [] then []
    else if HasVideo(rows[0]) then [rows[0]] + SelectVideoRows(rows[1..])
    else SelectVideoRows(rows[1..])
  }

  /** The filter keeps every row with a video, as often as it occurs, and
      nothing else. */
  lemma {:induction false} SelectCounts(rows: seq<Row>)
    ensures forall r :: multiset(SelectVideoRows(rows))[r] == if HasVideo(r) then multiset(rows)[r] else 0
    decreases |rows|
  {
    if rows != [] {
      SelectCounts(rows[1..]);
      assert rows == [rows[0]] + rows[1..];
    }
  }

  /** A row survives the filter exactly when it was listed and has a video. */
  lemma SelectMembers(rows: seq<Row>, r: Row)
    ensures r in SelectVideoRows(rows) <==> r in rows && HasVideo(r)
  {
    SelectCounts(rows);
    assert r in SelectVideoRows(rows) <==> multiset(SelectVideoRows(rows))[r] > 0;
    assert r in rows <==> multiset(rows)[r] > 0;
  }

  /** `a` is `b` with some elements left out, the rest kept in order. */
  predicate IsSubsequence<T(==)>(a: seq<T>, b: seq<T>)
    decreases |b|
  {
    if a == [] then true
    else if b == [] then false
    else if a[0] == b[0] then IsSubsequence(a[1..], b[1..])
    else IsSubsequence(a, b[1..])
  }

  /** The kept rows appear in the listing's order. */
  lemma {:induction false} SelectIsSubsequence(rows: seq<Row>)
    ensures IsSubsequence(SelectVideoRows(rows), rows)
    decreases |rows|
  {
    if rows != [] {
      SelectIsSubsequence(rows[1..]);
    }
  }

  /** Filtering distributes over concatenation, so each row is judged on its own. */
  lemma {:induction false} SelectAppend(a: seq<Row>, b: seq<Row>)
    ensures SelectVideoRows(a + b) == SelectVideoRows(a) + SelectVideoRows(b)
    decreases |a|
  {
    if a == [] {
      assert a + b == b;
    } else {
      assert (a + b)[1..] == a[1..] + b;
      SelectAppend(a[1..], b);
    }
  }

  /** Filtering twice keeps the same rows as filtering once. */
  lemma {:induction false} SelectIdempotent(rows: seq<Row>)
    ensures SelectVideoRows(SelectVideoRows(rows)) == SelectVideoRows(rows)
    decreases |rows|
  {
    if rows != [] {
      SelectIdempotent(rows[1..]);
      if HasVideo(rows[0]) {
        var kept := SelectVideoRows(rows);
        assert kept[0] == rows[0] && kept[1..] == SelectVideoRows(rows[1..]);
      }
    }
  }

  // ---------------------------------------------------------------- run

  /** The Thor options. */
  datatype Config = Config(email: string, password: string, limit: int, destinationDir: string)

  /** What the outside world answers: the `result` of the login body and of the
      listing body (`None` when the call, the JSON parse or `fetch('result')`
      raises), whether the transfer of a URL to a path succeeds, and the local
      zone's offset from UTC in seconds. */
  datatype World = World(login: Option<Session>, listing: Option<seq<Row>>,
                         transfer: (string, string) -> bool, utcOffset: int)

  datatype Request =
    | PostSession(url: string, headers: seq<Header>, email: string, password: string)
    | GetChats(url: string, headers: seq<Header>)

  /** One row taken up by `download_list`: the path, if one could be derived,
      and whether its download finished. */
  datatype Attempt = Attempt(row: Row, path: Option<string>, ok: bool)

  datatype Stage = AtLogin | AtListing | AtRow(index: nat)

  /** How `save` ends: normally, or in its `rescue` after raising at `stage`. */
  datatype Outcome = Completed | Rescued(stage: Stage)

  datatype Run = Run(requests: seq<Request>, attempts: seq<Attempt>, dirs: set<string>, outcome: Outcome)

  /** Whether a row is downloaded without raising: `Time.at` needs a start time,
      `Down.download` a URL and a transfer that finishes. */
  predicate RowSucceeds(cfg: Config, world: World, row: Row) {
    && row.startTime.Some?
    && row.videoUrl.Some?
    && world.transfer(row.videoUrl.value, FullPath(row.startTime.value, world.utcOffset, cfg.destinationDir))
  }

  /** The path `Path#full_path` derives for a row, if it has a start time. */
  function PathOfRow(cfg: Config, world: World, row: Row): Option<string> {
    if row.startTime.Some? then Some(FullPath(row.startTime.value, world.utcOffset, cfg.destinationDir)) else None
  }

  function RowDirectory(cfg: Config, world: World, row: Row): string
    requires row.startTime.Some?
  {
    Directory(row.startTime.value, world.utcOffset, cfg.destinationDir)
  }

  /** What taking up `row` amounts to, independently of the loop around it. */
  function AttemptOf(cfg: Config, world: World, row: Row): Attempt {
    Attempt(row, PathOfRow(cfg, world, row), RowSucceeds(cfg, world, row))
  }

  /** What `download_list` does with one row, worked out from the row alone:
      the attempt, and the directory `Path#prepare_path` creates first. */
  datatype RowPlan = RowPlan(attempt: Attempt, directory: Option<string>)

  /** One iteration of `download_list`: `Time.at` raises without a start time;
      otherwise the path is derived (its directory is prepared), then
      downloaded, which raises without a URL or when the transfer fails. */
  function PlanOf(cfg: Config, world: World, row: Row): (plan: RowPlan)
    ensures plan.attempt == AttemptOf(cfg, world, row)
    ensures plan.directory.Some? <==> row.startTime.Some?
    ensures plan.directory.Some? ==> plan.directory.value == RowDirectory(cfg, world, row)
  {
    match row.startTime
    case None => RowPlan(Attempt(row, None, false), None)
    case Some(t) =>
      var path := FullPath(t, world.utcOffset, cfg.destinationDir);
      var ok := row.videoUrl.Some? && world.transfer(row.videoUrl.value, path);
      RowPlan(Attempt(row, Some(path), ok), Some(Directory(t, world.utcOffset, cfg.destinationDir)))
  }

  /** The plans of `rows`, one per row. */
  function PlansOf(cfg: Config, world: World, rows: seq<Row>): (plans: seq<RowPlan>)
    ensures |plans| == |rows|
    ensures forall i :: 0 <= i < |rows| ==> plans[i] == PlanOf(cfg, world, rows[i])
  {
    seq(|rows|, i requires 0 <= i < |rows| => PlanOf(cfg, world, rows[i]))
  }

  /** `prepare_path` for a plan that has a directory. */
  function PrepareFor(dirs: set<string>, plan: RowPlan): (r: set<string>)
    ensures dirs <= r
    ensures plan.directory.Some? && plan.directory.value != [] ==> plan.directory.value in r
  {
    match plan.directory
    case None => dirs
    case Some(d) => Prepare(dirs, d)
  }

  /** `download_list`: the rows in order; the first one that raises ends the
      loop (and, through the `rescue` in `save`, the run). */
  function DownloadList(dirs: set<string>, plans: seq<RowPlan>): (r: (seq<Attempt>, set<string>))
    ensures 1 <= |r.0| <= |plans| || (r.0 == [] && plans == [])
    ensures dirs <= r.1
    decreases |plans|
  {
    if plans == [] then ([], dirs)
    else
      var dirs1 := PrepareFor(dirs, plans[0]);
      if !plans[0].attempt.ok then ([plans[0].attempt], dirs1)
      else
        var rest := DownloadList(dirs1, plans[1..]);
        ([plans[0].attempt] + rest.0, rest.1)
  }

  /** The attempts are the plans' attempts, in order. */
  lemma {:induction false} DownloadListAttempts(dirs: set<string>, plans: seq<RowPlan>)
    ensures var attempts := DownloadList(dirs, plans).0;
      forall i :: 0 <= i < |attempts| ==> attempts[i] == plans[i].attempt
    decreases |plans|
  {
    if plans != [] && plans[0].attempt.ok {
      DownloadListAttempts(PrepareFor(dirs, plans[0]), plans[1..]);
    }
  }

  /** Every attempt but the last succeeded, and the loop stops short of the
      plans only at a failure. */
  lemma {:induction false} DownloadListStopsAtFailure(dirs: set<string>, plans: seq<RowPlan>)
    ensures var attempts := DownloadList(dirs, plans).0;
      && (forall i :: 0 <= i < |attempts| - 1 ==> attempts[i].ok)
      && (|attempts| < |plans| ==> !attempts[|attempts| - 1].ok)
    decreases |plans|
  {
    if plans != [] && plans[0].attempt.ok {
      DownloadListStopsAtFailure(PrepareFor(dirs, plans[0]), plans[1..]);
    }
  }

  /** Every directory an attempted row needed exists afterwards. */
  lemma {:induction false} DownloadListDirectories(dirs: set<string>, plans: seq<RowPlan>)
    ensures var r := DownloadList(dirs, plans);
      forall i :: 0 <= i < |r.0| && plans[i].directory.Some? && plans[i].directory.value != [] ==>
        plans[i].directory.value in r.1
    decreases |plans|
  {
    if plans != [] && plans[0].attempt.ok {
      DownloadListDirectories(PrepareFor(dirs, plans[0]), plans[1..]);
    }
  }

  /** The directories `prepare_path` may create for a plan: its directory and
      the ancestors `FileUtils.makedirs` creates with it. */
  function CreatableBy(plan: RowPlan): set<string> {
    match plan.directory
    case None => {}
    case Some(d) => Ancestors(d)
  }

  function CreatableByAll(plans: seq<RowPlan>): set<string>
    decreases |plans|
  {
    if plans == [] then {} else CreatableBy(plans[0]) + CreatableByAll(plans[1..])
  }

  /** The loop creates no directory but those of the plans it takes up: the
      plans after the first failure create nothing. */
  lemma {:induction false} DownloadListCreatesOnly(dirs: set<string>, plans: seq<RowPlan>)
    ensures var r := DownloadList(dirs, plans);
      r.1 <= dirs + CreatableByAll(plans[..|r.0|])
    decreases |plans|
  {
    if plans != [] {
      var dirs1 := PrepareFor(dirs, plans[0]);
      assert dirs1 <= dirs + CreatableBy(plans[0]);
      if !plans[0].attempt.ok {
        assert plans[..1][1..] == [];
      } else {
        var rest := DownloadList(dirs1, plans[1..]);
        DownloadListCreatesOnly(dirs1, plans[1..]);
        var n := 1 + |rest.0|;
        assert plans[..n][0] == plans[0] && plans[..n][1..] == plans[1..][..|rest.0|];
      }
    }
  }

  /** What `fetch_list` and `download_list` leave behind once the listing
      body has been read. */
  datatype Phase = Phase(attempts: seq<Attempt>, dirs: set<string>, outcome: Outcome)

  /** How the loop over `total` rows ends, given what it attempted. */
  function OutcomeOf(attempts: seq<Attempt>, total: nat): Outcome {
    if attempts == [] || (|attempts| == total && attempts[|attempts| - 1].ok) then Completed
    else Rescued(AtRow(|attempts| - 1))
  }

  /** `fetch_list`'s filter, then `download_list`, under `save`'s rescue. */
  function Downloads(cfg: Config, world: World, dirs: set<string>, listed: seq<Row>): (phase: Phase)
    ensures dirs <= phase.dirs
    ensures phase.outcome != Rescued(AtLogin) && phase.outcome != Rescued(AtListing)
  {
    var rows := SelectVideoRows(listed);
    var r := DownloadList(dirs, PlansOf(cfg, world, rows));
    Phase(r.0, r.1, OutcomeOf(r.0, |rows|))
  }

  function LoginRequest(cfg: Config): Request {
    PostSession(SessionUrl(), LoginHeaders(), cfg.email, cfg.password)
  }

  function ListRequest(cfg: Config, session: Session): Request {
    GetChats(ChatsUrl(session.userId, cfg.limit), ListHeaders(session))
  }

  /** `Movie#save` over the existing directories `dirs`. */
  function Save(cfg: Config, world: World, dirs: set<string>): (run: Run)
    ensures |run.requests| >= 1 && run.requests[0] == LoginRequest(cfg)
    ensures dirs <= run.dirs
    ensures world.login.None? ==>
              run.requests == [LoginRequest(cfg)] && run.attempts == [] && run.dirs == dirs
    ensures world.login.Some? ==>
              |run.requests| == 2 && run.requests[1].GetChats?
              && run.requests[1].url == ChatsUrl(world.login.value.userId, cfg.limit)
              && run.requests[1].headers == ListHeaders(world.login.value)
    ensures world.login.Some? && world.listing.None? ==> run.attempts == [] && run.dirs == dirs
    ensures world.login.Some? && world.listing.Some? ==>
              var phase := Downloads(cfg, world, dirs, world.listing.value);
              run.attempts == phase.attempts && run.dirs == phase.dirs && run.outcome == phase.outcome
    ensures run.outcome == Rescued(AtLogin) <==> world.login.None?
    ensures run.outcome == Rescued(AtListing) <==> world.login.Some? && world.listing.None?
  {
    match world.login
    case None => Run([LoginRequest(cfg)], [], dirs, Rescued(AtLogin))
    case Some(session) =>
      var requests := [LoginRequest(cfg), ListRequest(cfg, session)];
      match world.listing
      case None => Run(requests, [], dirs, Rescued(AtListing))
      case Some(result) =>
        var phase := Downloads(cfg, world, dirs, result);
        Run(requests, phase.attempts, phase.dirs, phase.outcome)
  }

  /** The specification of where a loop over `plans` stops: `k` is the first
      plan whose attempt fails. */
  predicate FailsFirstAt(plans: seq<RowPlan>, k: nat) {
    && k < |plans|
    && !plans[k].attempt.ok
    && forall i :: 0 <= i < k ==> plans[i].attempt.ok
  }

  /** There is at most one first failure. */
  lemma FailsFirstUnique(plans: seq<RowPlan>, j: nat, k: nat)
    requires FailsFirstAt(plans, j) && FailsFirstAt(plans, k)
    ensures j == k
  {
  }

  /** The loop completes all plans exactly when none fails, and is rescued
      exactly at the first failure. */
  lemma {:induction false} DownloadListOutcome(dirs: set<string>, plans: seq<RowPlan>)
    ensures var outcome := OutcomeOf(DownloadList(dirs, plans).0, |plans|);
      && (outcome == Completed <==> forall i :: 0 <= i < |plans| ==> plans[i].attempt.ok)
      && (forall k: nat :: outcome == Rescued(AtRow(k)) <==> FailsFirstAt(plans, k))
  {
    var attempts := DownloadList(dirs, plans).0;
    DownloadListAttempts(dirs, plans);
    DownloadListStopsAtFailure(dirs, plans);
    if attempts != [] {
      var last := |attempts| - 1;
      if !attempts[last].ok {
        assert FailsFirstAt(plans, last);
        forall k: nat | FailsFirstAt(plans, k)
          ensures k == last
        {
          FailsFirstUnique(plans, k, last);
        }
      }
    }
  }

  /** No row raises. */
  predicate AllSucceed(cfg: Config, world: World, rows: seq<Row>) {
    forall i :: 0 <= i < |rows| ==> RowSucceeds(cfg, world, rows[i])
  }

  /** The specification of where a run stops: `k` is the first row that raises. */
  predicate FirstFailure(cfg: Config, world: World, rows: seq<Row>, k: nat) {
    && k < |rows|
    && !RowSucceeds(cfg, world, rows[k])
    && forall i :: 0 <= i < k ==> RowSucceeds(cfg, world, rows[i])
  }

  /** A plan's attempt succeeds exactly when its row does. */
  lemma PlansSucceed(cfg: Config, world: World, rows: seq<Row>)
    ensures var plans := PlansOf(cfg, world, rows);
      forall i :: 0 <= i < |rows| ==> plans[i].attempt.ok == RowSucceeds(cfg, world, rows[i])
  {
  }

  /** The first failure among the plans is the first failure among the rows. */
  lemma PlansFailFirst(cfg: Config, world: World, rows: seq<Row>, k: nat)
    ensures FailsFirstAt(PlansOf(cfg, world, rows), k) <==> FirstFailure(cfg, world, rows, k)
  {
    PlansSucceed(cfg, world, rows);
  }

  /** Once logged in and listed, `save` takes up the rows with a video in
      order, each as `AttemptOf` says. */
  lemma DownloadsAttempts(cfg: Config, world: World, dirs: set<string>, listed: seq<Row>)
    ensures var rows := SelectVideoRows(listed);
      var phase := Downloads(cfg, world, dirs, listed);
      && |phase.attempts| <= |rows|
      && (forall i :: 0 <= i < |phase.attempts| ==> phase.attempts[i] == AttemptOf(cfg, world, rows[i]))
  {
    var plans := PlansOf(cfg, world, SelectVideoRows(listed));
    assert Downloads(cfg, world, dirs, listed).attempts == DownloadList(dirs, plans).0;
    DownloadListAttempts(dirs, plans);
  }

  /** `save` completes exactly when no row with a video raises, and then it
      has taken up every such row. */
  lemma DownloadsCompleted(cfg: Config, world: World, dirs: set<string>, listed: seq<Row>)
    ensures Downloads(cfg, world, dirs, listed).outcome == Completed <==>
      AllSucceed(cfg, world, SelectVideoRows(listed))
    ensures AllSucceed(cfg, world, SelectVideoRows(listed)) ==>
      |Downloads(cfg, world, dirs, listed).attempts| == |SelectVideoRows(listed)|
  {
    var rows := SelectVideoRows(listed);
    var plans := PlansOf(cfg, world, rows);
    assert Downloads(cfg, world, dirs, listed).outcome == OutcomeOf(DownloadList(dirs, plans).0, |plans|);
    DownloadListOutcome(dirs, plans);
    PlansSucceed(cfg, world, rows);
    assert (forall i :: 0 <= i < |plans| ==> plans[i].attempt.ok) <==> AllSucceed(cfg, world, rows);
    DownloadListStopsAtFailure(dirs, plans);
    DownloadListAttempts(dirs, plans);
  }

  /** `save` is rescued at row `k` exactly when `k` is the first row with a
      video that raises; it has then taken up rows `0..k` and no later one. */
  lemma DownloadsRescued(cfg: Config, world: World, dirs: set<string>, listed: seq<Row>, k: nat)
    ensures Downloads(cfg, world, dirs, listed).outcome == Rescued(AtRow(k)) <==>
      FirstFailure(cfg, world, SelectVideoRows(listed), k)
    ensures FirstFailure(cfg, world, SelectVideoRows(listed), k) ==>
      |Downloads(cfg, world, dirs, listed).attempts| == k + 1
  {
    var rows := SelectVideoRows(listed);
    var plans := PlansOf(cfg, world, rows);
    var phase := Downloads(cfg, world, dirs, listed);
    assert phase.outcome == OutcomeOf(DownloadList(dirs, plans).0, |plans|);
    DownloadListOutcome(dirs, plans);
    PlansFailFirst(cfg, world, rows, k);
  }

  /** Every row `save` takes up that has a start time finds its lesson
      directory in place afterwards. */
  lemma DownloadsDirectories(cfg: Config, world: World, dirs: set<string>, listed: seq<Row>)
    ensures var rows := SelectVideoRows(listed);
      var run := Downloads(cfg, world, dirs, listed);
      forall i :: 0 <= i < |run.attempts| && rows[i].startTime.Some? ==>
        RowDirectory(cfg, world, rows[i]) in run.dirs
  {
    var rows := SelectVideoRows(listed);
    var plans := PlansOf(cfg, world, rows);
    DownloadListDirectories(dirs, plans);
    forall i | 0 <= i < |rows| && rows[i].startTime.Some?
      ensures plans[i].directory.value != []
    {
      assert plans[i].directory.value == RowDirectory(cfg, world, rows[i]);
    }
  }

  /** The directories `prepare_path` may create for one row: none without a
      start time, else its lesson directory and the ancestors. */
  function RowCreatable(cfg: Config, world: World, row: Row): set<string> {
    if row.startTime.Some? then Ancestors(RowDirectory(cfg, world, row)) else {}
  }

  function CreatableDirs(cfg: Config, world: World, rows: seq<Row>): set<string>
    decreases |rows|
  {
    if rows == [] then {} else RowCreatable(cfg, world, rows[0]) + CreatableDirs(cfg, world, rows[1..])
  }

  lemma PlanCreatable(cfg: Config, world: World, row: Row)
    ensures CreatableBy(PlanOf(cfg, world, row)) == RowCreatable(cfg, world, row)
  {
  }

  lemma {:induction false} PlansCreatable(cfg: Config, world: World, rows: seq<Row>)
    ensures CreatableByAll(PlansOf(cfg, world, rows)) == CreatableDirs(cfg, world, rows)
    decreases |rows|
  {
    if rows != [] {
      var plans := PlansOf(cfg, world, rows);
      assert plans[1..] == PlansOf(cfg, world, rows[1..]);
      PlanCreatable(cfg, world, rows[0]);
      PlansCreatable(cfg, world, rows[1..]);
    }
  }

  /** Once logged in and listed, `save` creates no directory but the lesson
      directories (with their ancestors) of the rows it takes up: a row after
      the first failure never reaches `prepare_path`. */
  lemma DownloadsCreatesOnly(cfg: Config, world: World, dirs: set<string>, listed: seq<Row>)
    ensures var rows := SelectVideoRows(listed);
      var phase := Downloads(cfg, world, dirs, listed);
      && |phase.attempts| <= |rows|
      && phase.dirs <= dirs + CreatableDirs(cfg, world, rows[..|phase.attempts|])
      && (AllSucceed(cfg, world, rows) ==> phase.dirs <= dirs + CreatableDirs(cfg, world, rows))
      && (forall k: nat :: FirstFailure(cfg, world, rows, k) ==>
            phase.dirs <= dirs + CreatableDirs(cfg, world, rows[..k + 1]))
  {
    var rows := SelectVideoRows(listed);
    var plans := PlansOf(cfg, world, rows);
    var r := DownloadList(dirs, plans);
    DownloadListCreatesOnly(dirs, plans);
    assert plans[..|r.0|] == PlansOf(cfg, world, rows[..|r.0|]);
    PlansCreatable(cfg, world, rows[..|r.0|]);
    DownloadsCompleted(cfg, world, dirs, listed);
    assert AllSucceed(cfg, world, rows) ==> rows[..|r.0|] == rows;
    forall k: nat | FirstFailure(cfg, world, rows, k)
      ensures Downloads(cfg, world, dirs, listed).dirs <= dirs + CreatableDirs(cfg, world, rows[..k + 1])
    {
      DownloadsRescued(cfg, world, dirs, listed, k);
    }
  }

  /** The rows `save` keeps: none when the listing fails. */
  function KeptRows(world: World): seq<Row> {
    if world.listing.Some? then SelectVideoRows(world.listing.value) else []
  }

  /** The directories after `save`: every existing one, the lesson directory of
      every row it takes up that has a start time, and nothing beyond those
      directories' ancestors. */
  lemma SaveDirectories(cfg: Config, world: World, dirs: set<string>)
    ensures var run, rows := Save(cfg, world, dirs), KeptRows(world);
      && |run.attempts| <= |rows|
      && dirs <= run.dirs
      && run.dirs <= dirs + CreatableDirs(cfg, world, rows[..|run.attempts|])
      && forall i :: 0 <= i < |run.attempts| && rows[i].startTime.Some? ==> RowDirectory(cfg, world, rows[i]) in run.dirs
  {
    if world.login.Some? && world.listing.Some? {
      DownloadsCreatesOnly(cfg, world, dirs, world.listing.value);
      DownloadsDirectories(cfg, world, dirs, world.listing.value);
    } else {
      assert KeptRows(world)[..0] == [];
    }
  }

  /** One step of the filter. */
  lemma SelectCons(row: Row, rest: seq<Row>)
    ensures SelectVideoRows([row] + rest) == (if HasVideo(row) then [row] else []) + SelectVideoRows(rest)
  {
    assert ([row] + rest)[1..] == rest;
  }

  /** The listing of the example below: a `null` flag drops the second row,
      any other non-`false` value keeps the third. */
  lemma ExampleSelect(listed: seq<Row>, t0: int, t1: int, t2: int)
    requires listed == [Row(Bool(true), Some("a"), Some(t0)), Row(Null, Some("x"), Some(t0)),
                        Row(OtherValue, Some("b"), Some(t1)), Row(Bool(true), Some("c"), Some(t2))]
    ensures SelectVideoRows(listed) == [listed[0], listed[2], listed[3]]
  {
    var a, b, c, d := listed[0], listed[1], listed[2], listed[3];
    assert listed == [a] + ([b] + ([c] + ([d] + [])));
    SelectCons(d, []);
    SelectCons(c, [d] + []);
    SelectCons(b, [c] + ([d] + []));
    SelectCons(a, [b] + ([c] + ([d] + [])));
  }

  /** Three rows with a video whose second transfer fails: the first is
      downloaded, the second is attempted, and the third is never taken up. */
  lemma ExampleSecondRowFails(cfg: Config, world: World, dirs: set<string>, listed: seq<Row>, t0: int, t1: int, t2: int)
    requires forall u, p :: world.transfer(u, p) <==> u != "b"
    requires listed == [Row(Bool(true), Some("a"), Some(t0)), Row(Null, Some("x"), Some(t0)),
                        Row(OtherValue, Some("b"), Some(t1)), Row(Bool(true), Some("c"), Some(t2))]
    ensures var phase := Downloads(cfg, world, dirs, listed);
      && |phase.attempts| == 2
      && phase.attempts[0].ok && !phase.attempts[1].ok
      && phase.attempts[1].row.videoUrl == Some("b")
      && phase.outcome == Rescued(AtRow(1))
  {
    ExampleSelect(listed, t0, t1, t2);
    ExampleFirstFailure(cfg, world, SelectVideoRows(listed), t0, t1, t2);
    DownloadsAttempts(cfg, world, dirs, listed);
    DownloadsRescued(cfg, world, dirs, listed, 1);
    var phase := Downloads(cfg, world, dirs, listed);
    assert |phase.attempts| == 2;
  }

  /** In the example, the row with URL "b" is the first that raises. */
  lemma ExampleFirstFailure(cfg: Config, world: World, rows: seq<Row>, t0: int, t1: int, t2: int)
    requires forall u, p :: world.transfer(u, p) <==> u != "b"
    requires rows == [Row(Bool(true), Some("a"), Some(t0)), Row(OtherValue, Some("b"), Some(t1)),
                      Row(Bool(true), Some("c"), Some(t2))]
    ensures FirstFailure(cfg, world, rows, 1)
  {
    assert RowSucceeds(cfg, world, rows[0]);
  }
}

=== FILE: strings.dfy ===
/** Searching, splitting and joining strings on a separator character. */
module Strings {
  import opened Wrappers

  /** Position of the first `c` in `s`, if any. */
  function IndexOf(s: string, c: char): (r: Option<nat>)
    ensures r.Some? ==> r.value < |s| && s[r.value] == c
    ensures r.Some? ==> forall j :: 0 <= j < r.value ==> s[j] != c
    ensures r.None? <==> c !in s
  {
    if s == [] then None
    else if s[0] == c then Some(0)
    else match IndexOf(s[1..], c)
      case None => None
      case Some(i) => Some(i + 1)
  }

  function Join(parts: seq<string>, sep: char): string {
    if parts == [] then []
    else if |parts| == 1 then parts[0]
    else parts[0] + [sep] + Join(parts[1..], sep)
  }

  /** The pieces of `s` between occurrences of `sep`; always at least one piece. */
  function Split(s: string, sep: char): (parts: seq<string>)
    ensures |parts| >= 1
  {
    if s == [] then [[]]
    else
      var rest := Split(s[1..], sep);
      if s[0] == sep then [[]] + rest else [[s[0]] + rest[0]] + rest[1..]
  }

  /** The last '/'-separated segment of a path. */
  function BaseName(p: string): string
    decreases |p|
  {
    if p == [] then []
    else if p[|p| - 1] == '/' then []
    else BaseName(p[..|p| - 1]) + [p[|p| - 1]]
  }

  /** Everything before the last '/' of a path (`File.dirname` without its
      special cases); empty when there is no '/'. */
  function DirName(p: string): string
    decreases |p|
  {
    if p == [] then []
    else if p[|p| - 1] == '/' then p[..|p| - 1]
    else DirName(p[..|p| - 1])
  }

  lemma {:induction false} IndexAfter(a: string, c: char, b: string)
    requires c !in a
    ensures IndexOf(a + [c] + b, c) == Some(|a|)
    decreases |a|
  {
    var s := a + [c] + b;
    if a != [] {
      assert s[1..] == a[1..] + [c] + b;
      IndexAfter(a[1..], c, b);
    }
  }

  lemma {:induction false} SplitNoSep(s: string, sep: char)
    requires sep !in s
    ensures Split(s, sep) == [s]
    decreases |s|
  {
    if s != [] {
      SplitNoSep(s[1..], sep);
      assert [s[0]] + s[1..] == s;
    }
  }

  lemma {:induction false} SplitAfter(a: string, sep: char, b: string)
    requires sep !in a
    ensures Split(a + [sep] + b, sep) == [a] + Split(b, sep)
    decreases |a|
  {
    var s := a + [sep] + b;
    if a == [] {
      assert s[1..] == b;
    } else {
      assert s[1..] == a[1..] + [sep] + b;
      SplitAfter(a[1..], sep, b);
      assert [a[0]] + a[1..] == a;
    }
  }

  /** Splitting a join recovers the parts when no part contains the separator. */
  lemma {:induction false} SplitJoin(parts: seq<string>, sep: char)
    requires |parts| >= 1
    requires forall i :: 0 <= i < |parts| ==> sep !in parts[i]
    ensures Split(Join(parts, sep), sep) == parts
    decreases |parts|
  {
    if |parts| == 1 {
      SplitNoSep(parts[0], sep);
    } else {
      SplitAfter(parts[0], sep, Join(parts[1..], sep));
      SplitJoin(parts[1..], sep);
      assert [parts[0]] + parts[1..] == parts;
    }
  }

  /** The segment after the last '/' of `a + "/" + b` is `b` when `b` has no '/'. */
  lemma {:induction false} BaseNameAfterSlash(a: string, b: string)
    requires '/' !in b
    ensures BaseName(a + "/" + b) == b
    decreases |b|
  {
    var p := a + "/" + b;
    if b == [] {
      assert p[|p| - 1] == '/';
    } else {
      var b' := b[..|b| - 1];
      assert p[..|p| - 1] == a + "/" + b';
      assert p[|p| - 1] == b[|b| - 1];
      BaseNameAfterSlash(a, b');
      assert b' + [b[|b| - 1]] == b;
    }
  }

  /** The part before the last '/' of `a + "/" + b` is `a` when `b` has no '/'. */
  lemma {:induction false} DirNameAfterSlash(a: string, b: string)
    requires '/' !in b
    ensures DirName(a + "/" + b) == a
    decreases |b|
  {
    var p := a + "/" + b;
    if b == [] {
      assert p[|p| - 1] == '/' && p[..|p| - 1] == a;
    } else {
      var b' := b[..|b| - 1];
      assert p[..|p| - 1] == a + "/" + b';
      assert p[|p| - 1] == b[|b| - 1];
      DirNameAfterSlash(a, b');
    }
  }
}

=== FILE: wrappers.dfy ===
/** Failure-carrying values used across the model. */
module Wrappers {

  /** A value that may be missing: a Ruby `nil`, an absent JSON key, or a step that raised. */
  datatype Option<+T> = None | Some(value: T) {

    /** The wrapped value, or `default` when there is none. */
    function GetOr(default: T): T {
      match this
      case Some(v) => v
      case None => default
    }
  }
}
